=== FILE: README.md ===
# Richard Strauss search and German dictionary order — a Dafny model

This project models two parts of the Mahler search app.

The first is the Richard Strauss search on the server (`Richard_Strauss.js`):

- loading the "RS" sheet into records keyed by header name;
- the score-location search by opera and scene, and by opera and page number;
- the list of distinct German terms, and the prefix suggestions drawn from it;
- the full-text term search, which groups the found rows by German text, sorts the groups with the German collation, and renders each row with its translation and a location label ("opera scene p.N：whom").

The second is the client-side logic shared by the list, dictionary and notes pages (`data_page_common.js`):

- the German sort key: trim, decompose, drop combining marks, spell ß as "ss";
- the A-Z rank and the comparator `compareGermanStrings`;
- sorting the rows and assigning the `letter-X` jump anchors;
- splitting the abbreviation list into section titles and entries.

The model uses immutable values throughout:

- a JavaScript value in a sheet cell is a `JsText.Cell`;
- a row object is a `map<string, Cell>`;
- each page or search outcome is a datatype.

Services of the JavaScript engine are parameters: the `GermanSort.Locale` and `StraussData.Helpers` records. They cover `normalize("NFD")`, `toUpperCase`, `toLowerCase` and `localeCompare`. The same goes for the server helpers whose source is outside this model: `normalizeString`, `escapeHtml`, `Number`, `parsePageInput`, `getSceneMap` and `getScoreInfoMap`. `Array.prototype.sort` is modelled as a stable insertion sort (`Sorting.SortBy`). The rest of the model relies on three of its properties: the result is a permutation, it is sorted under a consistent comparator, and it is stable (`Sorting.SortByStable`). Stability is what decides which of two tied rows receives a letter's anchor. An insertion sort is a faithful stand-in for the engine's sort: ECMA-262 has required `Array.prototype.sort` to be stable since its 2019 edition, and `Sorting.StableSortIsSortBy` proves that every stable sort under a consistent comparator produces `SortBy`'s order.

Modules, one per file:

- `Wrappers`: `Option`, `Result`.
- `JsText`: JavaScript values, `String(x)`, `trim`, `startsWith`, code-point order (the same as code-unit order on the BMP), `parseInt`.
- `Seqs`: `filter`, `slice`, `map`, `findIndex`.
- `Sorting`: the comparator-driven sort.
- `GermanSort`: `data_page_common.js`.
- `StraussData`: the sheet loader.
- `StraussSearch`: the scene and page searches.
- `StraussTerms`: the term list and suggestions.
- `StraussGrouping`: the grouping of found rows by German text.
- `StraussTermSearch`: the term search and its rendering.

## Model

| member | source | states |
|---|---|---|
| GermanSort.GetOrder | data_page_common.js:13-23 | A one-letter capital A-Z string ranks by its alphabet position (0-25). Anything else, including "" and lower-case letters, ranks 999. |
| GermanSort.CustomOrderIsAlphabet | data_page_common.js:14-18 | The anchor alphabet is exactly the 26 capitals in alphabetical order. Every capital letter sits at its own alphabet position. |
| GermanSort.NormalizeGermanForSort | data_page_common.js:25-31 | Non-strings and blank strings give "". The key never contains a combining mark (U+0300-U+036F) or a ß. |
| GermanSort.StripMarksKeeps | data_page_common.js:30 | Removing combining marks keeps exactly the characters of the input that are not marks. |
| GermanSort.StripMarksConcat | data_page_common.js:30 | Removing marks distributes over concatenation, so it works character by character. |
| GermanSort.ReplaceSharpS | data_page_common.js:30 | The result has no ß, and every character is either an "s" or was already in the input. |
| GermanSort.ReplaceSharpSConcat | data_page_common.js:30 | The ß rewrite distributes over concatenation. |
| GermanSort.RewritesOfOneChar | data_page_common.js:30 | On a single character, a mark vanishes, ß becomes "ss", and anything else is kept. |
| GermanSort.SortLetterOfBase | data_page_common.js:25-35 | A headword whose decomposed, trimmed text starts with an ASCII letter has that letter, upper-cased, as its sort letter. Its rank is the letter's alphabet position. |
| GermanSort.GetSortLetter | data_page_common.js:33-35 | A cell that is not a string, or is blank, has no sort letter; a letter comes from the first key character. What that letter is for ASCII, umlaut and ß headwords is stated by SortLetterOfBase, UmlautFilesUnderBase and SharpSFilesUnderS. |
| GermanSort.UmlautFilesUnderBase | data_page_common.js:25-35 | A headword starting with Ä/ä, Ö/ö or Ü/ü is filed under A, O or U, once decomposition splits off the diaeresis. |
| GermanSort.SharpSFilesUnderS | data_page_common.js:25-35 | A headword starting with ß is filed under S (rank 18), with or without decomposition. |
| GermanSort.CompareGermanStrings | data_page_common.js:37-50 | A lower rank sorts first. Equal ranks fall back to the trimmed texts: the locale's base-sensitivity collation, or code-point order (the same as code-unit order on the BMP) without it. |
| GermanSort.LettersBeforeOthers | data_page_common.js:20-23 | Headwords filed under a letter sort before every headword that is not, in both argument orders. |
| GermanSort.FallbackTieBreakValues | data_page_common.js:43-49 | Without `localeCompare`, equal-rank headwords compare 0 exactly when their trimmed texts are equal. Otherwise the result is -1 when the first text is smaller in code-point order (the same as code-unit order on the BMP), and 1 when it is larger. |
| GermanSort.FallbackAntisymmetric | data_page_common.js:43-49 | Without `localeCompare`, swapping the arguments negates the comparison. |
| GermanSort.TieBreakTransitive | data_page_common.js:43-49 | The tie-break is transitive when the collation is a consistent order (code-point order always is). |
| GermanSort.CompareConsistent | data_page_common.js:90 | The row comparator `(a, b) => compareGermanStrings(a[0], b[0])` is antisymmetric in sign and transitive, with a consistent collation (`TieBreakConsistent`). This is what a sort needs to produce a sorted list. |
| GermanSort.AnchorLetter | data_page_common.js:103-105 | A row can carry an anchor exactly when its headword is a non-empty string whose sort letter is A-Z. The anchor's letter is the one it ranks by. |
| GermanSort.AssignAnchors | data_page_common.js:95-109 | Each row receives `letter-L` exactly when it is the first row with anchor letter L. No anchor id is given twice. |
| GermanSort.RenderRows | data_page_common.js:88-137 | An empty list gives the "no data" message. Otherwise the rows are a permutation of the data, and anchors go to the first claimant of each letter. With a consistent collation (`TieBreakConsistent`), the rows are sorted by the comparator and the anchors come in strictly ascending letter order. The sort is then also stable: rows that compare equal keep their sheet order, so the first of them in the sheet is the one a shared letter's anchor goes to. |
| GermanSort.AnchorsAscendStrictly | data_page_common.js:88-109 | In sorted rows, the letters that receive anchors strictly increase down the page. |
| GermanSort.RenderAbbrList | data_page_common.js:139-175 | An empty list gives the "no data" message. Otherwise each row becomes, in order, a title (column B) exactly when column A is truthy and parses as an integer, and an entry (columns B and C) otherwise. |
| GermanSort.NumberRowsAreTitles | data_page_common.js:153 | A number in column A makes a title exactly when it is not zero. |
| GermanSort.LetterRowsAreEntries | data_page_common.js:153 | Text in column A that starts with a letter after leading whitespace makes an entry, never a title. |
| JsText.ParseIntOfDecimal | data_page_common.js:153 | `parseInt` reads back every integer from its decimal spelling. |
| Sorting.SortBySorted | data_page_common.js:90 | Sorting with a consistent comparator yields a list sorted by it. |
| Sorting.SortByStable | data_page_common.js:90 | The sort is stable, as ECMA-262 requires of `Array.prototype.sort` since its 2019 edition: for every element, the elements comparing equal to it come out in their input order. |
| Sorting.StableSortIsSortBy | data_page_common.js:90 | Under a consistent comparator, any sorted output of the input's length that keeps every class of equal elements in input order is exactly the model's sort, so the choice of algorithm does not matter. |
| StraussData.LoadSheet | Richard_Strauss.js:31-43 | A missing sheet is an error. With fewer than two rows the result is empty and the header is not checked. Otherwise only the first eight columns are read (cells past a short row read as ""). The first required header missing from those eight columns, in the listed order, is reported. Failing that, each later row becomes a record holding every required key, mapped through the header. A header cell reading `__proto__` creates no key, because on `{}` that assignment reaches the inherited accessor, which ignores a number. |
| StraussData.HeaderWithinWindow | Richard_Strauss.js:36-40 | Every key of the header map comes from a truthy header cell in one of the first eight columns. |
| StraussData.LoadSheetReadsEightColumns | Richard_Strauss.js:36-42 | Two sheets that agree on their first eight columns load to the same result, whatever lies beyond them. |
| StraussData.RequiredBeyondWindowIsMissing | Richard_Strauss.js:36-42 | A required header that appears only from the ninth column on counts as missing, and the load fails. |
| StraussData.HeaderMapCoversHeaders | Richard_Strauss.js:40 | A truthy header cell names a key of the header map exactly when that name is not `__proto__`. The key then maps to the cell's own column or a later one with the same name (the last duplicate wins). |
| StraussData.NoProtoField | Richard_Strauss.js:40-43 | No loaded record has a `__proto__` field, since the header map never holds that key for `for ... in` to copy. |
| StraussData.IndexMap | Richard_Strauss.js:40 | Over the column names (none for a falsy cell or one reading `__proto__`), the header map holds exactly the names that occur, each mapped to a column carrying it with no later column carrying it (the last duplicate wins). |
| StraussSearch.SceneFilter | Richard_Strauss.js:61-73 | Exactly the rows of the opera with a non-blank page are kept, each as often as it occurs and in sheet order: all of them when "all" was selected, and otherwise those whose `aufzug-szene` code was selected. |
| StraussSearch.SceneAllShortcut | Richard_Strauss.js:59-68 | Selecting "all" makes every other selected scene irrelevant. |
| StraussSearch.SceneFilterMonotone | Richard_Strauss.js:72 | Selecting more scenes never loses a row, and the order is kept. |
| StraussSearch.FalsyScenePartIsZero | Richard_Strauss.js:69-70 | A missing, empty or zero act or scene reads as the lower-cased "0", which is "0" under the standard `toLowerCase`. |
| StraussSearch.PageFilter | Richard_Strauss.js:112-120 | Exactly the rows of the opera whose page is present, not blank, a number and requested are kept, each as often as it occurs, in sheet order. |
| StraussSearch.PageFilterMonotone | Richard_Strauss.js:119 | Requesting more pages never loses a row, and the order is kept. |
| StraussSearch.NumericPageFound | Richard_Strauss.js:116-119 | A row of the opera whose page cell holds a number is found exactly when that number is requested. |
| StraussSearch.SearchByScene | Richard_Strauss.js:51-99 | A load error becomes the error message. Otherwise the page shows the opera's score information (if any) and the scene filter's rows. |
| StraussSearch.ScoreInfo | Richard_Strauss.js:53-55 | A non-empty score information is the map's entry for the normalised opera name; an opera missing from the map gets "". |
| StraussSearch.SearchByPage | Richard_Strauss.js:101-146 | A load error wins. Then an empty page set gives the "no valid page" message. Otherwise the page shows the score information and the page filter's rows. |
| StraussTerms.TermList | Richard_Strauss.js:160-162 | The list holds exactly the (de, de_normalized) pairs of the records in which both are truthy, in sheet order, each as often as the records carry it. |
| StraussTerms.DedupDistinct | Richard_Strauss.js:164 | After `new Map(...)`, no two terms share an original. |
| StraussTerms.Dedup | Richard_Strauss.js:164 | The values of `new Map(terms.map(...))` are drawn from the terms and are no more than them. Their meaning as a Map is stated by DedupDistinct, DedupSameOriginals, DedupKeepsLast and DedupFirstOccurrenceOrder. |
| StraussTerms.DedupSameOriginals | Richard_Strauss.js:164 | Deduplication keeps every original and adds none. |
| StraussTerms.DedupKeepsLast | Richard_Strauss.js:164 | Each kept term is the last term with its original; a later `Map.set` overwrites the value. |
| StraussTerms.DedupFirstOccurrenceOrder | Richard_Strauss.js:164 | The kept terms are ordered by the first occurrence of their originals; a `Map` keeps a key's first insertion position. |
| StraussTerms.DeTerms | Richard_Strauss.js:152-167 | The term list fails exactly when loading fails, and is otherwise the deduplicated list of complete terms. |
| StraussTerms.PrefixMatches | Richard_Strauss.js:185 | Exactly the terms whose normalised form starts with the query are kept, in list order, each as often as it occurs in the list. |
| StraussTerms.Suggest | Richard_Strauss.js:181-187 | A non-string input, or one shorter than two characters once trimmed, gives no suggestions. A non-string normalised form makes the call throw. Otherwise the result is the originals of the first (at most 20) prefix matches, in order. |
| StraussTerms.SearchPartially | Richard_Strauss.js:180-188 | A short input is answered before loading. A load error makes the call fail. Otherwise it is `Suggest` over the deduplicated term list. |
| StraussTerms.SuggestionsDistinctAndMatching | Richard_Strauss.js:164-187 | Suggestions drawn from the deduplicated list are pairwise distinct, and each is the original of a term whose normalised form starts with the normalised input. |
| StraussTermSearch.TermFilter | Richard_Strauss.js:207-211 | Exactly the rows whose truthy `de` contains the query after normalisation, and which have a non-blank page, are kept, each as often as it occurs, in sheet order. |
| StraussTermSearch.FoundRowsKeyedByGerman | Richard_Strauss.js:208-218 | Every found row has a truthy `de`, so the "（ドイツ語なし）" fallback key is never used. |
| StraussTermSearch.SearchTerms | Richard_Strauss.js:190-254 | A missing or blank query gives the prompt. Then a load error gives the error message, and no match gives "not found". If a found row's German text names a member that a plain object inherits, the grouping throws and the search reports the error. Otherwise the result holds the match count and the groups of the found rows. |
| StraussTermSearch.FoundGroupsPartition | Richard_Strauss.js:217-228 | The listed groups partition the found rows by German text: one group per distinct text, each holding exactly that text's rows in sheet order. With a consistent collation, the groups are in key order. |
| StraussGrouping.GroupRowsPartitions | Richard_Strauss.js:217-224 | Grouping gives one group per distinct key, with distinct keys. Each group holds exactly the rows with its key, in order, and every row is in the group of its key. |
| StraussGrouping.GroupRows | Richard_Strauss.js:217-224 | The corrected grouping has at most one group per row; GroupRowsPartitions states that it partitions the rows by key. |
| StraussGrouping.SortedGroupsPartition | Richard_Strauss.js:227-228 | Sorting the groups by key keeps the partition. With a consistent collation, the groups come out in key order. |
| StraussGrouping.PartitionsPermutation | Richard_Strauss.js:227 | Any reordering of a partition of the rows is still a partition of them. |
| StraussGrouping.GroupRowsAsWrittenFails | Richard_Strauss.js:217-224 | The grouping as written (a reduce into `{}`) throws exactly when some key is a name that a plain object inherits. When it does not throw, it agrees with the corrected grouping. |
| StraussGrouping.GroupRowsAsWritten | Richard_Strauss.js:217-224 | The reduce into `{}` fails only on a row whose key names an inherited member; GroupRowsAsWrittenFails gives the converse and agreement with the corrected grouping. |
| StraussGrouping.ConstructorKeyThrows | Richard_Strauss.js:218-222 | A single row whose German text is "constructor" makes the grouping as written throw. The corrected grouping puts it in its own group. |
| StraussTermSearch.BreakLines | Richard_Strauss.js:17 | No CR or LF is left in the output. |
| StraussTermSearch.BreakLinesIdentity | Richard_Strauss.js:17 | Text without line breaks passes through unchanged. |
| StraussTermSearch.BreakLinesConcat | Richard_Strauss.js:17 | The replacement distributes over concatenation unless the join splits a CR/LF pair. |
| StraussTermSearch.CrLfIsOneBreak | Richard_Strauss.js:17 | CR LF is one break, while LF CR is two. |
| StraussTermSearch.OperaName | Richard_Strauss.js:197-239 | A known opera key shows its display name. A key naming a member that the object literal inherits (such as "constructor") shows that member's text, unescaped. Any other key shows the escaped `oper` cell. |
| StraussTermSearch.DisplayNamesTidy | Richard_Strauss.js:198-204 | Every display name is non-empty with no whitespace at either end, so trimming the location line never cuts into it. |
| StraussTermSearch.FallbackSceneNameIsSceneCode | Richard_Strauss.js:235-241 | A scene that the scene map lacks, or names with "", is shown as `場面(aufzug-szene)`. The code in it is the one the scene search selects the row by. |
| StraussTermSearch.JoinLabel | Richard_Strauss.js:244-247 | The label is empty exactly when site and whom are both empty. It is the site when whom is empty, and otherwise the site followed by "：" and whom. |
| StraussTermSearch.LocationLabel | Richard_Strauss.js:243-247 | A row's label is empty exactly when its site and addressee both are, and it always starts with the site (JoinLabel); for a known opera it starts with the display name (LabelStartsWithOperaName). |
| StraussTermSearch.LabelStartsWithOperaName | Richard_Strauss.js:239-247 | For a known opera, the location label starts with the opera's display name. |
| StraussTermSearch.EntryOf | Richard_Strauss.js:231-252 | A row shows its `ja` cell (or "" when that is falsy), escaped, with breaks as `<br>`. It shows a location line exactly when the label is not empty. |
| StraussTermSearch.RenderGroups | Richard_Strauss.js:228-254 | One view per group, in order. Each view is headed by the group's key with breaks as `<br>`, and holds one entry per row of the group, in order. |

## Left out

- The spreadsheet, `CacheService` chunking, `Logger`, e-mail notifications, `Date` and the HTML string building are left out. The model stops at the datatypes the page is built from, because these are I/O and presentation.
- The DOM (`document`, `createElement`, `innerHTML`), `fetch` and page-type detection (`getPageType`, `fetchData`, the `DOMContentLoaded` handler) in data_page_common.js are left out. The render functions return the rows, ids and items they would put on the page.
- data_page_common.js holds two identical copies of its code between merge-conflict markers. The model follows the first copy; lines cited from it apply equally to the second.
- `normalizeString`, `escapeHtml`, `parsePageInput`, `getSceneMap`, `getScoreInfoMap` and `formatGenericResults` are not part of this model. The first five are parameters; the searches return the rows they would hand to the formatter.
- `getRSTermsForClient` is left out: it is a reshaping of `getRichardStraussDeTerms` for a client that is not modelled.
- `Number(x)` on a string, NFD decomposition, `toUpperCase`, `toLowerCase` and `localeCompare` are engine parameters. Lemmas that need concrete behaviour state it as a precondition, such as `UpperIsAscii` or `TieBreakConsistent`. Page numbers are integers; fractional pages are not modelled.
- Strings are sequences of code points, whereas JavaScript uses UTF-16 code units. No character in the model's constants lies outside the BMP. The difference shows for input outside the BMP in two places. `TooShort` counts code points where `input.trim().length < 2` (Richard_Strauss.js:181) counts code units, so the model refuses a lone astral character that JavaScript accepts. `GetSortLetter` upper-cases the first code point where `charAt(0)` (data_page_common.js:34) takes the first code unit, a lone surrogate.
- `Object.keys` order for integer-like German texts is not modelled; `StraussTermSearch.SearchTerms` sorts the groups, so only a stable-sort tie between equal keys could depend on it.
- `SearchTerms`: the groups are stated up to order (a permutation of the grouping), plus sortedness when the collation is consistent, because `Array.prototype.sort` with an inconsistent comparator has no specified result.
- `ScoreInfo`: the score-info map is read as if it had no inherited members. For an opera whose normalised name is such a member (such as "constructor"), the source would show that member's text. The scene map needs no such caveat, since its lookup keys always contain "-".
- `SceneFilter`: `scenes` is taken to be an array of strings. The page sends the selected scenes as one comma-joined string (composer_common.js:136), and the router that splits it is not part of this model. On an unsplit string, `includes` would be a substring test.
- `Cell` has no `Date` values and no non-integral numbers. So `parseInt` of a column-A cell in `GermanSort.RenderAbbrList` is modelled only for strings, integers, booleans and empty cells, not for fractional or date cells.
- A sheet narrower than eight columns, where `getRange` would throw, is not modelled. `LoadSheet` reads the cells past a short row as empty strings, as `getValues` returns them for empty cells.
- `AddToGroupAsWritten`: only the standard `Object.prototype` members (`InheritedNames`) are treated as inherited. Members that other code might add to the prototype are not modelled.
- `ParseInt`: the value is an unbounded integer, whereas JavaScript's result loses precision beyond 2^53. The source only tests the result against NaN. The radix argument is not modelled, since the source never passes one.

## Findings

| source | as written | input that shows it | evidently intended | confidence | as-written member | corrected member |
|---|---|---|---|---|---|---|
| Richard_Strauss.js:217-224 | The found rows are grouped by German text with `reduce` into a plain object `{}`. For a key that the object inherits, `acc[de]` is already truthy (a function), so no array is created and `acc[de].push(row)` throws a TypeError. The search then reports an error instead of results; `StraussTermSearch.SearchTerms` models this as written, and its found groups are those of the corrected grouping, which the two agree on whenever the grouping as written succeeds. | A sheet row with `de` equal to "constructor" (or "toString", "valueOf", ...) and a non-blank page, searched with the query "constructor". | Every distinct German text gets its own group (a `Map` or `Object.create(null)`). | high, not executed | StraussGrouping.GroupRowsAsWrittenFails | StraussGrouping.GroupRowsPartitions |

=== FILE: german_sort.dfy ===
/**
 * Dictionary order for German headwords on the list, dictionary and notes
 * pages (data_page_common.js): the sort key, the A-Z rank, the comparator,
 * the `letter-X` jump anchors and the abbreviation-list classification.
 *
 * Unicode normalisation, upper-casing and the German base-sensitivity
 * collation are supplied by the JavaScript engine; they are parameters
 * here (see `Locale`).
 */
module GermanSort {
  import opened Wrappers
  import opened JsText
  import opened Seqs
  import opened Sorting

  /** The engine's locale and Unicode services. `nfd` and `baseCompare` are
      `None` on an engine without `String.prototype.normalize` or
      `localeCompare`, where the code falls back. */
  datatype Locale = Locale(
    nfd: Option<string -> string>,               // s.normalize("NFD")
    upper: string -> string,                     // s.toUpperCase()
    baseCompare: Option<(string, string) -> int> // a.localeCompare(b, "de", {sensitivity: "base"})
  )

  /** The alphabet of jump anchors, in display order. */
  const CustomOrder: seq<string> :=
    ["A", "B", "C", "D", "E", "F", "G", "H", "I", "J", "K",
     "L", "M", "N", "O", "P", "Q", "R", "S", "T", "U",
     "V", "W", "X", "Y", "Z"]

  /** A one-character string holding a capital ASCII letter. */
  predicate IsAZ(letter: string)
  {
    |letter| == 1 && 'A' <= letter[0] <= 'Z'
  }

  /** The rank of a sort letter: its position in the A-Z table, 999 for
      anything else ("" and lower-case letters included). */
  function GetOrder(letter: string): (r: int)
    ensures IsAZ(letter) ==> r == letter[0] as int - 'A' as int
    ensures !IsAZ(letter) ==> r == 999
    ensures 0 <= r < 26 || r == 999
  {
    CustomOrderIsAlphabet();
    match FindIndex(CustomOrder, (y: string) => y == letter)
    case Some(i) => i
    case None => 999
  }

  /** The table holds exactly the 26 capital letters, in alphabetical order. */
  lemma CustomOrderIsAlphabet()
    ensures |CustomOrder| == 26
    ensures forall i :: 0 <= i < 26 ==> CustomOrder[i] == [(i + 'A' as int) as char]
    ensures forall s :: IsAZ(s) ==> CustomOrder[s[0] as int - 'A' as int] == s
  {
    forall s | IsAZ(s) ensures CustomOrder[s[0] as int - 'A' as int] == s {
      assert s == [s[0]];
    }
  }

  // ---------------------------------------------------------------------------
  // Sort key
  // ---------------------------------------------------------------------------

  /** A combining diacritical mark, U+0300 to U+036F. */
  predicate IsMark(c: char)
  {
    '\U{0300}' <= c <= '\U{036F}'
  }

  /** `s.replace(/[̀-ͯ]/g, "")` */
  function StripMarks(s: string): (r: string)
    ensures |r| <= |s|
    ensures forall k :: 0 <= k < |r| ==> !IsMark(r[k])
  {
    if |s| == 0 then ""
    else (if IsMark(s[0]) then "" else [s[0]]) + StripMarks(s[1..])
  }

  /** Stripping keeps exactly the characters that are not marks. */
  lemma {:induction false} StripMarksKeeps(s: string)
    ensures forall c :: c in StripMarks(s) <==> c in s && !IsMark(c)
  {
    if |s| > 0 {
      StripMarksKeeps(s[1..]);
      assert s == [s[0]] + s[1..];
    }
  }

  /** `s.replace(/ß/gi, "ss")`. Without the `u` flag a case-insensitive
      match canonicalises by upper-casing only when that yields a single
      character; "ß" upper-cases to "SS", so the pattern matches U+00DF
      alone. */
  function ReplaceSharpS(s: string): (r: string)
    ensures forall k :: 0 <= k < |r| ==> r[k] != 'ß'
    ensures forall k :: 0 <= k < |r| ==> r[k] == 's' || r[k] in s
  {
    if |s| == 0 then ""
    else (if s[0] == 'ß' then "ss" else [s[0]]) + ReplaceSharpS(s[1..])
  }

  /** Both rewrites act character by character: they distribute over
      concatenation, and that with their effect on one character
      determines them completely. */
  lemma {:induction false} StripMarksConcat(a: string, b: string)
    ensures StripMarks(a + b) == StripMarks(a) + StripMarks(b)
  {
    if |a| == 0 {
      assert a + b == b;
    } else {
      assert (a + b)[0] == a[0];
      assert (a + b)[1..] == a[1..] + b;
      StripMarksConcat(a[1..], b);
    }
  }

  lemma {:induction false} ReplaceSharpSConcat(a: string, b: string)
    ensures ReplaceSharpS(a + b) == ReplaceSharpS(a) + ReplaceSharpS(b)
  {
    if |a| == 0 {
      assert a + b == b;
    } else {
      assert (a + b)[0] == a[0];
      assert (a + b)[1..] == a[1..] + b;
      ReplaceSharpSConcat(a[1..], b);
    }
  }

  /** The one-character cases: every ß becomes "ss", every mark is dropped,
      every other character stays. */
  lemma RewritesOfOneChar(c: char)
    ensures StripMarks([c]) == if IsMark(c) then "" else [c]
    ensures ReplaceSharpS([c]) == if c == 'ß' then "ss" else [c]
  {
  }

  /** The trimmed text that sorting and anchoring work on, before it is
      decomposed. */
  function SortText(text: Cell): string
  {
    Trim(ToJsString(Or(text, Str(""))))
  }

  /** `normalizeGermanForSort(text)`: trim, decompose, drop combining marks,
      spell ß as "ss". Non-strings and blank strings give "". */
  function NormalizeGermanForSort(text: Cell, loc: Locale): (r: string)
    ensures !text.Str? || IsBlank(text.s) ==> r == ""
    ensures forall k :: 0 <= k < |r| ==> !IsMark(r[k]) && r[k] != 'ß'
  {
    if !text.Str? then ""
    else
      var trimmed := Trim(text.s);
      if trimmed == "" then ""
      else
        var decomposed := match loc.nfd case Some(f) => f(trimmed) case None => trimmed;
        ReplaceSharpS(StripMarks(decomposed))
  }

  /** `getSortLetter(text)`: the first character of the key, upper-cased;
      a cell that is not a string, or is blank, has no letter. */
  function GetSortLetter(text: Cell, loc: Locale): (r: string)
    ensures !text.Str? || IsBlank(text.s) ==> r == ""
    ensures r != "" ==> |NormalizeGermanForSort(text, loc)| > 0
  {
    var n := NormalizeGermanForSort(text, loc);
    if n == "" then "" else loc.upper([n[0]])
  }

  /** The rank `compareGermanStrings` orders by first. */
  function Rank(text: Cell, loc: Locale): int
  {
    GetOrder(GetSortLetter(text, loc))
  }

  /** `toUpperCase` behaves as ASCII on ASCII letters. */
  ghost predicate UpperIsAscii(loc: Locale)
  {
    forall c: char :: ('A' <= c <= 'Z' || 'a' <= c <= 'z') ==> loc.upper([c]) == [Capital(c)]
  }

  /** The ASCII capital of an ASCII letter; other characters unchanged. */
  function Capital(c: char): char
  {
    if 'a' <= c <= 'z' then (c as int - 32) as char else c
  }

  /** The key starts where the decomposed text starts, unless that is a
      combining mark; a leading ß contributes the "s" of "ss". */
  lemma KeyHead(d: string)
    requires |d| > 0 && !IsMark(d[0])
    ensures var key := ReplaceSharpS(StripMarks(d));
      |key| > 0 && key[0] == (if d[0] == 'ß' then 's' else d[0])
  {
    var stripped := StripMarks(d);
    assert stripped == [d[0]] + StripMarks(d[1..]);
    assert stripped[0] == d[0];
  }

  /** An ASCII letter upper-cases to its capital, which has a rank. */
  lemma UpperOfAsciiLetter(c: char, loc: Locale)
    requires 'a' <= c <= 'z' || 'A' <= c <= 'Z'
    requires UpperIsAscii(loc)
    ensures loc.upper([c]) == [Capital(c)]
    ensures IsAZ([Capital(c)])
  {
  }

  /** The key of a non-blank string is the rewritten decomposition of its
      trimmed text. */
  lemma KeyOfText(w: string, loc: Locale)
    requires !IsBlank(w)
    ensures NormalizeGermanForSort(Str(w), loc) ==
      ReplaceSharpS(StripMarks(match loc.nfd case Some(f) => f(Trim(w)) case None => Trim(w)))
  {
    assert Trim(w) != "";
  }

  /** A word whose decomposition starts with an ASCII letter files under
      that letter's capital. */
  lemma SortLetterOfBase(w: string, loc: Locale)
    requires !IsBlank(w)
    requires loc.nfd.Some?
    requires var d := loc.nfd.value(Trim(w)); |d| > 0 && ('a' <= d[0] <= 'z' || 'A' <= d[0] <= 'Z')
    requires UpperIsAscii(loc)
    ensures GetSortLetter(Str(w), loc) == [Capital(loc.nfd.value(Trim(w))[0])]
    ensures Rank(Str(w), loc) == Capital(loc.nfd.value(Trim(w))[0]) as int - 'A' as int
  {
    var d := loc.nfd.value(Trim(w));
    var key := ReplaceSharpS(StripMarks(d));
    KeyOfText(w, loc);
    KeyHead(d);
    assert key[0] == d[0];
    UpperOfAsciiLetter(d[0], loc);
    assert GetSortLetter(Str(w), loc) == loc.upper([key[0]]);
  }

  /** The letter an umlaut decomposes to. */
  function UmlautBase(c: char): char
  {
    match c
    case 'Ä' => 'A' case 'ä' => 'a'
    case 'Ö' => 'O' case 'ö' => 'o'
    case 'Ü' => 'U' case 'ü' => 'u'
    case _ => c
  }

  /** Words starting with Ä/ä, Ö/ö, Ü/ü file under A, O, U, provided the
      decomposition splits off the diaeresis (U+0308). */
  lemma UmlautFilesUnderBase(w: string, loc: Locale)
    requires !IsBlank(w)
    requires Trim(w)[0] in "ÄäÖöÜü"
    requires loc.nfd.Some?
    requires var d := loc.nfd.value(Trim(w));
      |d| >= 2 && d[0] == UmlautBase(Trim(w)[0]) && d[1] == '\U{0308}'
    requires UpperIsAscii(loc)
    ensures GetSortLetter(Str(w), loc) == (if Trim(w)[0] in "Ää" then "A" else if Trim(w)[0] in "Öö" then "O" else "U")
  {
    var c := Trim(w)[0];
    UmlautCapital(c);
    SortLetterOfBase(w, loc);
  }

  lemma UmlautCapital(c: char)
    requires c in "ÄäÖöÜü"
    ensures 'a' <= UmlautBase(c) <= 'z' || 'A' <= UmlautBase(c) <= 'Z'
    ensures [Capital(UmlautBase(c))] == if c in "Ää" then "A" else if c in "Öö" then "O" else "U"
  {
  }

  /** A word starting with ß files under S: ß has no decomposition, and its
      replacement "ss" starts the key. */
  lemma SharpSFilesUnderS(w: string, loc: Locale)
    requires !IsBlank(w)
    requires Trim(w)[0] == 'ß'
    requires loc.nfd.None? || (|loc.nfd.value(Trim(w))| > 0 && loc.nfd.value(Trim(w))[0] == 'ß')
    requires UpperIsAscii(loc)
    ensures GetSortLetter(Str(w), loc) == "S"
    ensures Rank(Str(w), loc) == 18
  {
    var t := Trim(w);
    var d := match loc.nfd case Some(f) => f(t) case None => t;
    var key := ReplaceSharpS(StripMarks(d));
    KeyOfText(w, loc);
    KeyHead(d);
    assert key[0] == 's';
    UpperOfAsciiLetter('s', loc);
    assert GetSortLetter(Str(w), loc) == loc.upper([key[0]]);
  }

  // ---------------------------------------------------------------------------
  // Comparator
  // ---------------------------------------------------------------------------

  /** The order among headwords of equal rank: the locale's base-sensitivity
      collation, or, without one, code-point order with 0 for equal texts. */
  function TieBreak(ta: string, tb: string, loc: Locale): int
  {
    match loc.baseCompare
    case Some(collate) => collate(ta, tb)
    case None => if ta == tb then 0 else if LexLess(tb, ta) then 1 else -1
  }

  /** Without `localeCompare`, the tie-break is 0 for equal texts and
      otherwise -1 or 1, -1 exactly when the first text is the smaller. */
  lemma FallbackTieBreakValues(ta: string, tb: string, loc: Locale)
    requires loc.baseCompare.None?
    ensures TieBreak(ta, tb, loc) == 0 <==> ta == tb
    ensures ta != tb ==> (TieBreak(ta, tb, loc) == -1 <==> LexLess(ta, tb))
    ensures ta != tb ==> (TieBreak(ta, tb, loc) == 1 <==> LexLess(tb, ta))
  {
    LexTrichotomy(ta, tb);
  }

  /** The comparison of two headwords given their ranks and trimmed texts:
      rank difference first, the tie-break for equal ranks. */
  function Ranked(ra: int, ta: string, rb: int, tb: string, loc: Locale): int
  {
    var orderDiff := ra - rb;
    if orderDiff != 0 then orderDiff else TieBreak(ta, tb, loc)
  }

  /** `compareGermanStrings(a, b)` */
  function CompareGermanStrings(a: Cell, b: Cell, loc: Locale): (r: int)
    ensures Rank(a, loc) < Rank(b, loc) ==> r < 0
    ensures Rank(a, loc) > Rank(b, loc) ==> r > 0
    ensures Rank(a, loc) == Rank(b, loc) ==> r == TieBreak(SortText(a), SortText(b), loc)
  {
    Ranked(Rank(a, loc), SortText(a), Rank(b, loc), SortText(b), loc)
  }

  /** Headwords filed under a letter precede every headword that is not
      (empty, non-string, digit-initial, unmapped initials). */
  lemma LettersBeforeOthers(a: Cell, b: Cell, loc: Locale)
    requires IsAZ(GetSortLetter(a, loc)) && !IsAZ(GetSortLetter(b, loc))
    ensures CompareGermanStrings(a, b, loc) < 0
    ensures CompareGermanStrings(b, a, loc) > 0
  {
  }

  /** Without a collation the comparator is antisymmetric on every pair. */
  lemma FallbackAntisymmetric(a: Cell, b: Cell, loc: Locale)
    requires loc.baseCompare.None?
    ensures CompareGermanStrings(a, b, loc) == -CompareGermanStrings(b, a, loc)
  {
    RankedAntisymmetric(Rank(a, loc), SortText(a), Rank(b, loc), SortText(b), loc);
  }

  lemma RankedAntisymmetric(ra: int, ta: string, rb: int, tb: string, loc: Locale)
    requires loc.baseCompare.None?
    ensures Ranked(ra, ta, rb, tb, loc) == -Ranked(rb, tb, ra, ta, loc)
  {
    LexTrichotomy(ta, tb);
  }

  /** The tie-break is a consistent comparator: the code-point fallback
      always, a supplied collation when it is one. */
  ghost predicate TieBreakConsistent(loc: Locale)
  {
    loc.baseCompare.None? || Consistent(loc.baseCompare.value)
  }

  lemma TieBreakAntisymmetric(x: string, y: string, loc: Locale)
    requires TieBreakConsistent(loc)
    ensures Sign(TieBreak(x, y, loc)) == -Sign(TieBreak(y, x, loc))
  {
    if loc.baseCompare.None? {
      LexTrichotomy(x, y);
    }
  }

  lemma TieBreakTransitive(x: string, y: string, z: string, loc: Locale)
    requires TieBreakConsistent(loc)
    requires TieBreak(x, y, loc) <= 0 && TieBreak(y, z, loc) <= 0
    ensures TieBreak(x, z, loc) <= 0
  {
    if loc.baseCompare.None? {
      LexTrichotomy(x, y);
      LexTrichotomy(y, z);
      LexTrichotomy(x, z);
      if x != y && y != z {
        LexTransitive(x, y, z);
      }
    }
  }

  /** The order `renderList` and `renderNotes` sort rows by: the headword in
      the row's first column. */
  function RowOrder(loc: Locale): (seq<Cell>, seq<Cell>) -> int
  {
    (a: seq<Cell>, b: seq<Cell>) => CompareGermanStrings(CellAt(a, 0), CellAt(b, 0), loc)
  }

  /** Rank first, then a consistent tie-break, is again a consistent
      comparator, so the sorted order of rows is well defined. */
  lemma CompareConsistent(loc: Locale)
    requires TieBreakConsistent(loc)
    ensures Consistent(RowOrder(loc))
  {
    var cmp := RowOrder(loc);
    forall a: seq<Cell>, b: seq<Cell> ensures Sign(cmp(a, b)) == -Sign(cmp(b, a)) {
      RowOrderAntisymmetric(a, b, loc);
    }
    forall a: seq<Cell>, b: seq<Cell>, c: seq<Cell> | cmp(a, b) <= 0 && cmp(b, c) <= 0
      ensures cmp(a, c) <= 0
    {
      RowOrderTransitive(a, b, c, loc);
    }
  }

  lemma RowOrderAntisymmetric(a: seq<Cell>, b: seq<Cell>, loc: Locale)
    requires TieBreakConsistent(loc)
    ensures Sign(RowOrder(loc)(a, b)) == -Sign(RowOrder(loc)(b, a))
  {
    var x, y := CellAt(a, 0), CellAt(b, 0);
    assert RowOrder(loc)(a, b) == CompareGermanStrings(x, y, loc);
    assert RowOrder(loc)(b, a) == CompareGermanStrings(y, x, loc);
    TieBreakAntisymmetric(SortText(x), SortText(y), loc);
  }

  lemma RowOrderTransitive(a: seq<Cell>, b: seq<Cell>, c: seq<Cell>, loc: Locale)
    requires TieBreakConsistent(loc)
    requires RowOrder(loc)(a, b) <= 0 && RowOrder(loc)(b, c) <= 0
    ensures RowOrder(loc)(a, c) <= 0
  {
    var x, y, z := CellAt(a, 0), CellAt(b, 0), CellAt(c, 0);
    var cxy, cyz := CompareGermanStrings(x, y, loc), CompareGermanStrings(y, z, loc);
    assert RowOrder(loc)(a, b) == cxy && RowOrder(loc)(b, c) == cyz;
    assert RowOrder(loc)(a, c) == CompareGermanStrings(x, z, loc);
    var rx, ry, rz := Rank(x, loc), Rank(y, loc), Rank(z, loc);
    assert rx <= ry <= rz;
    if rx == rz {
      assert cxy == TieBreak(SortText(x), SortText(y), loc);
      assert cyz == TieBreak(SortText(y), SortText(z), loc);
      TieBreakTransitive(SortText(x), SortText(y), SortText(z), loc);
    }
  }

  // ---------------------------------------------------------------------------
  // Jump anchors
  // ---------------------------------------------------------------------------

  /** The anchor letter a row may carry: its headword is a non-empty string
      whose sort letter is one of A-Z. */
  function AnchorLetter(german: Cell, loc: Locale): (r: Option<char>)
    ensures r.Some? <==> german.Str? && german.s != "" && IsAZ(GetSortLetter(german, loc))
    ensures r.Some? ==> Rank(german, loc) == r.value as int - 'A' as int
  {
    if german.Str? && german.s != "" then
      var letter := GetSortLetter(german, loc);
      if letter != "" && IsAZ(letter) then Some(letter[0]) else None
    else None
  }

  /** The row id `"letter-" + L`. */
  function AnchorId(letter: char): string
  {
    "letter-" + [letter]
  }

  /** Row `i` is the first to carry its anchor letter. */
  predicate FirstClaim(letters: seq<Option<char>>, i: nat)
    requires i < |letters|
  {
    letters[i].Some? && forall j :: 0 <= j < i ==> letters[j] != letters[i]
  }

  lemma AnchorIdInjective(a: char, b: char)
    ensures AnchorId(a) == AnchorId(b) ==> a == b
  {
    assert AnchorId(a)[7] == a && AnchorId(b)[7] == b;
  }

  /** The id a row receives: its letter's, when it is the first row to
      carry that letter. */
  function AnchorOf(letters: seq<Option<char>>, i: nat): Option<string>
    requires i < |letters|
  {
    if FirstClaim(letters, i) then Some(AnchorId(letters[i].value)) else None
  }

  /** Anchor assignment in `renderList`/`renderNotes`: walking the sorted
      rows (given by their anchor letters) with a set of letters already
      used, a row receives the id of its letter when no earlier row has
      claimed that letter. */
  method AssignAnchors(letters: seq<Option<char>>) returns (ids: seq<Option<string>>)
    ensures |ids| == |letters|
    ensures forall i :: 0 <= i < |letters| ==> ids[i] == AnchorOf(letters, i)
    ensures forall i, j :: 0 <= i < j < |ids| && ids[i].Some? ==> ids[j] != ids[i]
  {
    var anchorSet: set<char> := {};
    ids := [];
    var i := 0;
    while i < |letters|
      invariant 0 <= i <= |letters| && |ids| == i
      invariant forall c :: c in anchorSet <==> Some(c) in letters[..i]
      invariant forall k :: 0 <= k < i ==> ids[k] == AnchorOf(letters, k)
    {
      assert letters[..i + 1] == letters[..i] + [letters[i]];
      var id: Option<string> := None;
      if letters[i].Some? && letters[i].value !in anchorSet {
        id := Some(AnchorId(letters[i].value));
        anchorSet := anchorSet + {letters[i].value};
      }
      ids := ids + [id];
      i := i + 1;
    }
    forall i, j | 0 <= i < j < |ids| && ids[i].Some? ensures ids[j] != ids[i] {
      if ids[j].Some? {
        AnchorIdInjective(letters[i].value, letters[j].value);
      }
    }
  }

  /** What `renderList`/`renderNotes` put on the page: the "no data"
      message, or the rows in dictionary order with their anchor ids. */
  datatype ListPage = NoData | Listed(rows: seq<seq<Cell>>, ids: seq<Option<string>>)

  /** The anchor letter of each row, in order. */
  function RowLetters(rows: seq<seq<Cell>>, loc: Locale): (r: seq<Option<char>>)
    ensures |r| == |rows|
    ensures forall i :: 0 <= i < |rows| ==> r[i] == AnchorLetter(CellAt(rows[i], 0), loc)
  {
    MapSeq(rows, (row: seq<Cell>) => AnchorLetter(CellAt(row, 0), loc))
  }

  /** In rows sorted by `RowOrder`, anchor letters never go backwards. */
  lemma AnchorLettersAscend(rows: seq<seq<Cell>>, loc: Locale)
    requires Sorted(rows, RowOrder(loc))
    ensures var letters := RowLetters(rows, loc);
      forall i, j :: 0 <= i < j < |rows| && letters[i].Some? && letters[j].Some? ==>
        letters[i].value <= letters[j].value
  {
    var letters := RowLetters(rows, loc);
    forall i, j | 0 <= i < j < |rows| && letters[i].Some? && letters[j].Some?
      ensures letters[i].value <= letters[j].value
    {
      var x, y := CellAt(rows[i], 0), CellAt(rows[j], 0);
      assert RowOrder(loc)(rows[i], rows[j]) == CompareGermanStrings(x, y, loc);
      assert Rank(x, loc) <= Rank(y, loc);
    }
  }

  /** `renderList(data)` / `renderNotes(data)`: sort, then anchor. */
  method RenderRows(data: seq<seq<Cell>>, loc: Locale) returns (page: ListPage)
    ensures page.NoData? <==> |data| == 0
    ensures page.Listed? ==> |page.rows| == |data| && |page.ids| == |data|
    ensures page.Listed? ==> multiset(page.rows) == multiset(data)
    ensures page.Listed? ==> forall i :: 0 <= i < |data| ==>
      page.ids[i] == AnchorOf(RowLetters(page.rows, loc), i)
    ensures page.Listed? && TieBreakConsistent(loc) ==> Sorted(page.rows, RowOrder(loc))
    ensures page.Listed? && TieBreakConsistent(loc) ==> AnchorsAscend(RowLetters(page.rows, loc))
    ensures page.Listed? && TieBreakConsistent(loc) ==> forall x ::
      Filter(page.rows, Ties(RowOrder(loc), x)) == Filter(data, Ties(RowOrder(loc), x))
  {
    var sorted := SortBy(data, RowOrder(loc));
    if |data| == 0 {
      return NoData;
    }
    var letters := RowLetters(sorted, loc);
    var ids := AssignAnchors(letters);
    page := Listed(sorted, ids);
    if TieBreakConsistent(loc) {
      CompareConsistent(loc);
      SortBySorted(data, RowOrder(loc));
      AnchorsAscendStrictly(sorted, loc);
      forall x ensures Filter(sorted, Ties(RowOrder(loc), x)) == Filter(data, Ties(RowOrder(loc), x)) {
        SortByStable(data, RowOrder(loc), x);
      }
    }
  }

  /** The letters that receive anchors strictly increase along the rows. */
  predicate AnchorsAscend(letters: seq<Option<char>>)
  {
    forall i, j :: 0 <= i < j < |letters| && FirstClaim(letters, i) && FirstClaim(letters, j) ==>
      letters[i].value < letters[j].value
  }

  lemma AnchorsAscendStrictly(rows: seq<seq<Cell>>, loc: Locale)
    requires Sorted(rows, RowOrder(loc))
    ensures AnchorsAscend(RowLetters(rows, loc))
  {
    AnchorLettersAscend(rows, loc);
  }

  // ---------------------------------------------------------------------------
  // Abbreviation list
  // ---------------------------------------------------------------------------

  /** A line of the abbreviation list: a section title (column B), or an
      abbreviation (column B) with its expansion (column C). */
  datatype AbbrItem = Title(text: Cell) | Entry(short: Cell, long: Cell)

  datatype AbbrView = NoAbbrData | Items(items: seq<AbbrItem>)

  /** `colA && !isNaN(parseInt(colA))` */
  predicate IsTitleRow(colA: Cell)
  {
    Truthy(colA) && ParseInt(ToJsString(colA)).Some?
  }

  /** `renderAbbrList(data)`: the "no data" message for an empty sheet,
      otherwise one title or entry per row, in order. */
  function RenderAbbrList(data: seq<seq<Cell>>): (v: AbbrView)
    ensures v.NoAbbrData? <==> |data| == 0
    ensures v.Items? ==> |v.items| == |data|
    ensures v.Items? ==> forall i :: 0 <= i < |data| ==>
      (v.items[i].Title? <==> IsTitleRow(CellAt(data[i], 0)))
      && (v.items[i].Title? ==> v.items[i].text == CellAt(data[i], 1))
      && (v.items[i].Entry? ==> v.items[i].short == CellAt(data[i], 1) && v.items[i].long == CellAt(data[i], 2))
  {
    if |data| == 0 then NoAbbrData
    else Items(MapSeq(data, (row: seq<Cell>) =>
      if IsTitleRow(CellAt(row, 0)) then Title(CellAt(row, 1))
      else Entry(CellAt(row, 1), CellAt(row, 2))))
  }

  /** A non-zero number in column A makes a title; zero, being falsy, makes
      an entry. */
  lemma NumberRowsAreTitles(n: int)
    ensures IsTitleRow(Num(n)) <==> n != 0
  {
    ParseIntOfDecimal(n);
  }

  /** Text in column A makes a title exactly when `parseInt` reads a number
      from it: one that starts with a letter after its leading whitespace
      never does. */
  lemma LetterRowsAreEntries(s: string)
    requires var t := TrimStart(s); |t| > 0 && ('a' <= t[0] <= 'z' || 'A' <= t[0] <= 'Z')
    ensures !IsTitleRow(Str(s))
  {
    var t := TrimStart(s);
    assert SignFree(t) == t;
    ParseIntNeedsDigit(s);
    assert ToJsString(Str(s)) == s;
  }
}

=== FILE: js_text.dfy ===
/**
 * The slice of JavaScript value and string semantics that the search and
 * sort code relies on: spreadsheet cell values and their truthiness, the
 * `String(...)` conversion, `trim`, `startsWith`/`includes`, relational
 * comparison of strings, and `parseInt`.
 *
 * Characters are Unicode scalar values; a JavaScript string is a sequence
 * of UTF-16 code units, which agrees with this model on every character of
 * the Basic Multilingual Plane.
 */
module JsText {
  import opened Wrappers

  /** A value read from a spreadsheet cell or a request parameter. Spreadsheet
      dates and non-integral numbers are not modelled. */
  datatype Cell = Undefined | Null | Str(s: string) | Num(n: int) | Bool(b: bool)

  /** JavaScript truthiness (`if (x)`, `x && ...`, `x || d`). */
  predicate Truthy(c: Cell)
  {
    match c
    case Str(s) => s != ""
    case Num(n) => n != 0
    case Bool(b) => b
    case _ => false
  }

  /** `c || d` */
  function Or(c: Cell, d: Cell): (r: Cell)
    ensures Truthy(c) ==> r == c
    ensures !Truthy(c) ==> r == d
  {
    if Truthy(c) then c else d
  }

  /** `row[i]` on an array row: `undefined` past its end. */
  function CellAt(row: seq<Cell>, i: nat): (c: Cell)
    ensures i >= |row| ==> c == Undefined
    ensures i < |row| ==> c == row[i]
  {
    if i < |row| then row[i] else Undefined
  }

  /** Members every plain object inherits from `Object.prototype`: reading
      any of them from `{}` or from an object literal gives that member
      (a truthy function or object), never `undefined`. */
  const InheritedNames: set<string> := {
    "constructor", "__proto__", "hasOwnProperty", "isPrototypeOf",
    "propertyIsEnumerable", "toLocaleString", "toString", "valueOf",
    "__defineGetter__", "__defineSetter__", "__lookupGetter__", "__lookupSetter__"
  }

  /** The inherited accessor whose setter ignores a value that is neither
      an object nor `null`: `o["__proto__"] = 3` leaves `o` without that key. */
  const ProtoAccessor: string := "__proto__"

  // ---------------------------------------------------------------------------
  // Decimal rendering of integers (Number.prototype.toString for integers)
  // ---------------------------------------------------------------------------

  function DigitChar(d: nat): (c: char)
    requires d < 10
    ensures '0' <= c <= '9'
  {
    "0123456789"[d]
  }

  function NatToDecimal(n: nat): (r: string)
    ensures |r| > 0
    ensures forall k :: 0 <= k < |r| ==> '0' <= r[k] <= '9'
    ensures r[0] == '0' ==> n == 0
  {
    if n < 10 then [DigitChar(n)] else NatToDecimal(n / 10) + [DigitChar(n % 10)]
  }

  /** `String(n)` for an integer `n`. */
  function IntToDecimal(n: int): (r: string)
    ensures |r| > 0
    ensures n < 0 <==> r[0] == '-'
  {
    if n < 0 then "-" + NatToDecimal(-n) else NatToDecimal(n)
  }

  /** `String(c)`: the conversion a template literal or `.toString()` applies. */
  function ToJsString(c: Cell): (r: string)
    ensures c.Str? ==> r == c.s
    ensures c.Num? || c.Bool? || c.Undefined? || c.Null? ==> r != ""
  {
    match c
    case Undefined => "undefined"
    case Null => "null"
    case Str(s) => s
    case Num(n) => IntToDecimal(n)
    case Bool(b) => if b then "true" else "false"
  }

  // ---------------------------------------------------------------------------
  // Whitespace and trim (String.prototype.trim, ECMA-262 WhiteSpace and
  // LineTerminator code points)
  // ---------------------------------------------------------------------------

  predicate IsJsSpace(c: char)
  {
    || c == '\U{0009}' || c == '\U{000A}' || c == '\U{000B}' || c == '\U{000C}' || c == '\U{000D}'
    || c == ' ' || c == '\U{00A0}' || c == '\U{1680}'
    || ('\U{2000}' <= c <= '\U{200A}')
    || c == '\U{2028}' || c == '\U{2029}' || c == '\U{202F}' || c == '\U{205F}'
    || c == '\U{3000}' || c == '\U{FEFF}'
  }

  /** Every character of `s` is whitespace (`s.trim() === ''`). */
  predicate IsBlank(s: string)
  {
    forall k :: 0 <= k < |s| ==> IsJsSpace(s[k])
  }

  function TrimStart(s: string): (r: string)
    ensures |r| <= |s| && r == s[|s| - |r|..]
    ensures forall k :: 0 <= k < |s| - |r| ==> IsJsSpace(s[k])
    ensures r == [] || !IsJsSpace(r[0])
  {
    if |s| > 0 && IsJsSpace(s[0]) then TrimStart(s[1..]) else s
  }

  function TrimEnd(s: string): (r: string)
    ensures |r| <= |s| && r == s[..|r|]
    ensures forall k :: |r| <= k < |s| ==> IsJsSpace(s[k])
    ensures r == [] || !IsJsSpace(r[|r| - 1])
  {
    if |s| > 0 && IsJsSpace(s[|s| - 1]) then TrimEnd(s[..|s| - 1]) else s
  }

  /** `s.trim()` */
  function Trim(s: string): (r: string)
    ensures |r| <= |s|
    ensures r == [] || (!IsJsSpace(r[0]) && !IsJsSpace(r[|r| - 1]))
    ensures r == [] <==> IsBlank(s)
  {
    var t := TrimStart(s);
    var r := TrimEnd(t);
    if r == [] then
      r
    else
      assert !IsJsSpace(r[0]);
      assert !IsBlank(s) by {
        assert t[0] == r[0];
        assert s[|s| - |t|] == t[0];
      }
      r
  }

  // ---------------------------------------------------------------------------
  // startsWith, includes, relational comparison
  // ---------------------------------------------------------------------------

  /** `s.startsWith(p)` */
  predicate StartsWith(s: string, p: string)
  {
    |p| <= |s| && s[..|p|] == p
  }

  lemma StartsWithTransitive(s: string, t: string, u: string)
    requires StartsWith(s, t) && StartsWith(t, u)
    ensures StartsWith(s, u)
  {
    assert s[..|u|] == s[..|t|][..|u|];
  }

  /** `s.includes(t)` */
  predicate Includes(s: string, t: string)
  {
    exists i :: 0 <= i <= |s| - |t| && StartsWith(s[i..], t)
  }

  /** `a < b` on strings: lexicographic order of the characters, a proper
      prefix ordering before its extensions. */
  predicate LexLess(a: string, b: string)
  {
    if |a| == 0 then |b| > 0
    else if |b| == 0 then false
    else if a[0] != b[0] then a[0] < b[0]
    else LexLess(a[1..], b[1..])
  }

  /** Exactly one of `a < b`, `a === b`, `b < a` holds. */
  lemma {:induction false} LexTrichotomy(a: string, b: string)
    ensures a == b ==> !LexLess(a, b) && !LexLess(b, a)
    ensures a != b ==> (LexLess(a, b) <==> !LexLess(b, a))
  {
    if |a| == 0 || |b| == 0 {
    } else if a[0] != b[0] {
    } else {
      LexTrichotomy(a[1..], b[1..]);
      if a != b {
        assert a == [a[0]] + a[1..] && b == [b[0]] + b[1..];
        assert a[1..] != b[1..];
      }
    }
  }

  lemma {:induction false} LexTransitive(a: string, b: string, c: string)
    requires LexLess(a, b) && LexLess(b, c)
    ensures LexLess(a, c)
  {
    if |a| == 0 || |b| == 0 || |c| == 0 {
    } else if a[0] == b[0] && b[0] == c[0] {
      LexTransitive(a[1..], b[1..], c[1..]);
    }
  }

  // ---------------------------------------------------------------------------
  // parseInt (ECMA-262 section 19.2.5, radix omitted)
  // ---------------------------------------------------------------------------

  /** The value of `c` as a digit of `base` (10 or 16), if it is one. */
  function DigitValue(c: char, base: nat): (r: Option<nat>)
    requires base == 10 || base == 16
    ensures r.Some? ==> r.value < base
    ensures base == 10 ==> (r.Some? <==> '0' <= c <= '9')
  {
    if '0' <= c <= '9' then Some(c as nat - '0' as nat)
    else if base == 16 && 'a' <= c <= 'f' then Some(c as nat - 'a' as nat + 10)
    else if base == 16 && 'A' <= c <= 'F' then Some(c as nat - 'A' as nat + 10)
    else None
  }

  /** Length of the longest prefix of `t` made of digits of `base`. */
  function DigitRun(t: string, base: nat): (r: nat)
    requires base == 10 || base == 16
    ensures r <= |t|
  {
    if |t| > 0 && DigitValue(t[0], base).Some? then 1 + DigitRun(t[1..], base) else 0
  }

  /** The run is made of digits and stops at the first non-digit. */
  lemma {:induction false} DigitRunIsMaximal(t: string, base: nat)
    requires base == 10 || base == 16
    ensures forall k :: 0 <= k < DigitRun(t, base) ==> DigitValue(t[k], base).Some?
    ensures DigitRun(t, base) < |t| ==> DigitValue(t[DigitRun(t, base)], base).None?
  {
    if |t| > 0 && DigitValue(t[0], base).Some? {
      DigitRunIsMaximal(t[1..], base);
      forall k | 1 <= k < DigitRun(t, base) ensures DigitValue(t[k], base).Some? {
        assert t[k] == t[1..][k - 1];
      }
    }
  }

  /** Positional value of a string of digits, most significant digit first. */
  function DigitsValue(d: string, base: nat): nat
    requires base == 10 || base == 16
  {
    if |d| == 0 then 0
    else
      var last := match DigitValue(d[|d| - 1], base) case Some(v) => v case None => 0;
      DigitsValue(d[..|d| - 1], base) * base + last
  }

  /** Value of the digits of `t` in `base`, with the sign applied; `None`
      (NaN) when `t` does not start with a digit. */
  function SignedRun(t: string, base: nat, negative: bool): Option<int>
    requires base == 10 || base == 16
  {
    var n := DigitRun(t, base);
    if n == 0 then None
    else
      var v := DigitsValue(t[..n], base);
      Some(if negative then -(v as int) else v as int)
  }

  /** The text after an optional leading sign. */
  function SignFree(t: string): (r: string)
    ensures r == t || (|t| > 0 && (t[0] == '-' || t[0] == '+') && r == t[1..])
  {
    if |t| > 0 && (t[0] == '-' || t[0] == '+') then t[1..] else t
  }

  /** `parseInt(s)`: skip leading whitespace, read an optional sign, switch
      to base 16 after a `0x`/`0X` prefix, then read the longest run of
      digits. `None` stands for NaN. */
  function ParseInt(s: string): Option<int>
  {
    var t0 := TrimStart(s);
    var negative := |t0| > 0 && t0[0] == '-';
    var t := SignFree(t0);
    if |t| >= 2 && t[0] == '0' && (t[1] == 'x' || t[1] == 'X') then
      SignedRun(t[2..], 16, negative)
    else
      SignedRun(t, 10, negative)
  }

  /** `parseInt` gives a number only when a decimal digit follows the
      leading whitespace and sign. */
  lemma ParseIntNeedsDigit(s: string)
    ensures ParseInt(s).Some? ==>
      var t := SignFree(TrimStart(s)); |t| > 0 && '0' <= t[0] <= '9'
  {
    var t := SignFree(TrimStart(s));
    if |t| > 0 && !('0' <= t[0] <= '9') {
      assert DigitRun(t, 10) == 0;
    }
  }

  /** A decimal numeral reads back as the number it denotes. */
  lemma {:induction false} DecimalValue(n: nat)
    ensures DigitsValue(NatToDecimal(n), 10) == n
  {
    if n >= 10 {
      var d := NatToDecimal(n);
      DecimalValue(n / 10);
      assert d[..|d| - 1] == NatToDecimal(n / 10);
    }
  }

  /** A string made of decimal digits is read entirely. */
  lemma {:induction false} DecimalRunIsWhole(d: string)
    requires forall k :: 0 <= k < |d| ==> '0' <= d[k] <= '9'
    ensures DigitRun(d, 10) == |d|
  {
    if |d| > 0 {
      assert forall k :: 0 <= k < |d[1..]| ==> d[1..][k] == d[k + 1];
      DecimalRunIsWhole(d[1..]);
    }
  }

  /** A decimal rendering never looks like a `0x` prefix. */
  lemma DecimalNotHex(m: nat)
    ensures var d := NatToDecimal(m); !(|d| >= 2 && d[0] == '0')
  {
  }

  /** `parseInt(String(n)) === n` for every integer `n`. */
  lemma ParseIntOfDecimal(n: int)
    ensures ParseInt(IntToDecimal(n)) == Some(n)
  {
    var m: nat := if n < 0 then -n else n;
    var d := NatToDecimal(m);
    var s := IntToDecimal(n);
    assert TrimStart(s) == s by {
      assert !IsJsSpace(s[0]);
    }
    assert SignFree(s) == d by {
      if n < 0 {
        assert s == "-" + d && s[1..] == d;
      } else {
        assert s == d;
      }
    }
    DecimalNotHex(m);
    assert ParseInt(s) == SignedRun(d, 10, n < 0);
    SignedRunOfDecimal(m, n < 0);
  }

  /** The digits of a decimal rendering are read whole, to the number. */
  lemma SignedRunOfDecimal(m: nat, negative: bool)
    ensures SignedRun(NatToDecimal(m), 10, negative) == Some(if negative then -(m as int) else m as int)
  {
    var d := NatToDecimal(m);
    DecimalRunIsWhole(d);
    DecimalValue(m);
    assert d[..|d|] == d;
  }
}

=== FILE: seqs.dfy ===
/**
 * `Array.prototype.filter`, `slice` and `indexOf` over immutable sequences,
 * with the contracts every caller relies on: a filter keeps exactly the
 * elements that pass, each as often as it occurs, in their original order.
 */
module Seqs {
  import opened Wrappers

  /** `a` is `b` with some elements removed, the rest in their order. */
  predicate IsSubsequence<T(==)>(a: seq<T>, b: seq<T>)
    decreases |b|
  {
    if |a| == 0 then true
    else if |b| == 0 then false
    else if a[0] == b[0] then IsSubsequence(a[1..], b[1..])
    else IsSubsequence(a, b[1..])
  }

  /** `s.filter(p)` */
  function Filter<T(==,!new)>(s: seq<T>, p: T -> bool): (r: seq<T>)
    ensures |r| <= |s|
    ensures forall k :: 0 <= k < |r| ==> p(r[k])
    ensures forall x :: x in r <==> x in s && p(x)
  {
    if |s| == 0 then []
    else
      var tail := Filter(s[1..], p);
      assert s == [s[0]] + s[1..];
      if p(s[0]) then [s[0]] + tail else tail
  }

  /** The filter keeps each passing element as often as it occurs. */
  lemma {:induction false} FilterMultiset<T(!new)>(s: seq<T>, p: T -> bool)
    ensures forall x :: multiset(Filter(s, p))[x] == if p(x) then multiset(s)[x] else 0
  {
    if |s| > 0 {
      FilterMultiset(s[1..], p);
      assert s == [s[0]] + s[1..];
    }
  }

  /** The filter keeps the passing elements in their order. */
  lemma {:induction false} FilterIsSubsequence<T(!new)>(s: seq<T>, p: T -> bool)
    ensures IsSubsequence(Filter(s, p), s)
  {
    if |s| > 0 {
      FilterIsSubsequence(s[1..], p);
      var tail := Filter(s[1..], p);
      if p(s[0]) {
        assert ([s[0]] + tail)[1..] == tail;
      } else {
        SubsequenceDropHead(tail, s);
      }
    }
  }

  /** Prepending an element to the longer sequence keeps a subsequence. */
  lemma {:induction false} SubsequenceDropHead<T>(a: seq<T>, b: seq<T>)
    requires |b| > 0 && IsSubsequence(a, b[1..])
    ensures IsSubsequence(a, b)
    decreases |b|, 1
  {
    if |a| > 0 && a[0] == b[0] {
      SubsequenceTail(a, b[1..]);
    }
  }

  /** Dropping the first element of a subsequence keeps a subsequence. */
  lemma {:induction false} SubsequenceTail<T>(a: seq<T>, c: seq<T>)
    requires |a| > 0 && IsSubsequence(a, c)
    ensures IsSubsequence(a[1..], c)
    decreases |c| + 1, 0
  {
    assert |c| > 0;
    if a[0] == c[0] {
      SubsequenceDropHead(a[1..], c);
    } else {
      SubsequenceTail(a, c[1..]);
      SubsequenceDropHead(a[1..], c);
    }
  }

  /** Filtering distributes over concatenation. */
  lemma {:induction false} FilterConcat<T(!new)>(a: seq<T>, b: seq<T>, p: T -> bool)
    ensures Filter(a + b, p) == Filter(a, p) + Filter(b, p)
  {
    if |a| == 0 {
      assert a + b == b;
    } else {
      assert (a + b)[1..] == a[1..] + b;
      FilterConcat(a[1..], b, p);
    }
  }

  lemma AppendAssociative<T>(a: seq<T>, b: seq<T>, c: seq<T>)
    ensures a + (b + c) == (a + b) + c
  {
  }

  /** `s.slice(0, n)` */
  function Take<T>(s: seq<T>, n: nat): (r: seq<T>)
    ensures |r| == if |s| < n then |s| else n
    ensures forall k :: 0 <= k < |r| ==> r[k] == s[k]
  {
    if |s| < n then s else s[..n]
  }

  /** `s.map(f)` */
  function MapSeq<T, U>(s: seq<T>, f: T -> U): (r: seq<U>)
    ensures |r| == |s|
    ensures forall k :: 0 <= k < |s| ==> r[k] == f(s[k])
  {
    seq(|s|, k requires 0 <= k < |s| => f(s[k]))
  }

  /** Index of the first element satisfying `p`, if any (`findIndex`). */
  function FindIndex<T>(s: seq<T>, p: T -> bool): (r: Option<nat>)
    ensures r.Some? ==> r.value < |s| && p(s[r.value])
    ensures r.Some? ==> forall k :: 0 <= k < r.value ==> !p(s[k])
    ensures r.None? ==> forall k :: 0 <= k < |s| ==> !p(s[k])
  {
    if |s| == 0 then None
    else if p(s[0]) then Some(0)
    else match FindIndex(s[1..], p)
      case None => None
      case Some(i) => Some(i + 1)
  }

  /** Filtering with predicates that agree on the sequence gives the same
      result. */
  lemma {:induction false} FilterCongruent<T(!new)>(s: seq<T>, p: T -> bool, q: T -> bool)
    requires forall k :: 0 <= k < |s| ==> p(s[k]) == q(s[k])
    ensures Filter(s, p) == Filter(s, q)
  {
    if |s| > 0 {
      FilterCongruent(s[1..], p, q);
    }
  }

  /** A weaker predicate keeps everything a stronger one keeps, in the same
      order. */
  lemma {:induction false} FilterWeaker<T(!new)>(s: seq<T>, p: T -> bool, q: T -> bool)
    requires forall k :: 0 <= k < |s| ==> p(s[k]) ==> q(s[k])
    ensures IsSubsequence(Filter(s, p), Filter(s, q))
  {
    if |s| > 0 {
      FilterWeaker(s[1..], p, q);
      var a, b := Filter(s[1..], p), Filter(s[1..], q);
      if p(s[0]) {
        assert Filter(s, p) == [s[0]] + a && Filter(s, q) == [s[0]] + b;
        assert ([s[0]] + a)[1..] == a && ([s[0]] + b)[1..] == b;
      } else if q(s[0]) {
        assert Filter(s, q) == [s[0]] + b;
        assert ([s[0]] + b)[1..] == b;
        SubsequenceDropHead(a, [s[0]] + b);
      }
    }
  }
}

=== FILE: sorting.dfy ===
/**
 * `Array.prototype.sort(compare)` as a stable insertion sort. ECMA-262 has
 * required `sort` to be stable since its 2019 edition, and for a consistent
 * comparator every stable sort produces the same order (`StableSortIsSortBy`),
 * so this stands for whatever algorithm the engine uses.
 */
module Sorting {
  import opened Seqs

  function Sign(n: int): int
  {
    if n < 0 then -1 else if n > 0 then 1 else 0
  }

  /** The requirements ECMA-262 places on a consistent comparator: swapping
      the arguments flips the sign, and "not after" is transitive. */
  ghost predicate Consistent<T(!new)>(cmp: (T, T) -> int)
  {
    && (forall a, b :: Sign(cmp(a, b)) == -Sign(cmp(b, a)))
    && (forall a, b, c :: cmp(a, b) <= 0 && cmp(b, c) <= 0 ==> cmp(a, c) <= 0)
  }

  /** No element is ordered strictly after a later one. */
  ghost predicate Sorted<T>(s: seq<T>, cmp: (T, T) -> int)
  {
    forall i, j :: 0 <= i < j < |s| ==> cmp(s[i], s[j]) <= 0
  }

  /** Insert `x` into `s` after every element it does not precede. */
  function Insert<T>(x: T, s: seq<T>, cmp: (T, T) -> int): (r: seq<T>)
    ensures |r| == |s| + 1
    ensures multiset(r) == multiset(s) + multiset{x}
  {
    if |s| == 0 then [x]
    else if cmp(x, s[0]) < 0 then [x] + s
    else
      assert s == [s[0]] + s[1..];
      [s[0]] + Insert(x, s[1..], cmp)
  }

  /** `s.slice().sort(cmp)` */
  function SortBy<T>(s: seq<T>, cmp: (T, T) -> int): (r: seq<T>)
    ensures |r| == |s|
    ensures multiset(r) == multiset(s)
  {
    if |s| == 0 then []
    else
      assert s == s[..|s| - 1] + [s[|s| - 1]];
      Insert(s[|s| - 1], SortBy(s[..|s| - 1], cmp), cmp)
  }

  lemma {:induction false} InsertSorted<T(!new)>(x: T, s: seq<T>, cmp: (T, T) -> int)
    requires Consistent(cmp)
    requires Sorted(s, cmp)
    ensures Sorted(Insert(x, s, cmp), cmp)
  {
    if |s| == 0 {
    } else if cmp(x, s[0]) < 0 {
      PrependSorted(x, s, cmp);
    } else {
      assert Sign(cmp(x, s[0])) == -Sign(cmp(s[0], x));
      var t := Insert(x, s[1..], cmp);
      InsertSorted(x, s[1..], cmp);
      forall j | 0 <= j < |t| ensures cmp(s[0], t[j]) <= 0 {
        assert t[j] in multiset(s[1..]) + multiset{x} by {
          assert t[j] in multiset(t);
        }
        if t[j] != x {
          var k :| 0 <= k < |s[1..]| && s[1..][k] == t[j];
          assert s[k + 1] == t[j];
        }
      }
      PrependSorted(s[0], t, cmp);
    }
  }

  /** An element not after the head of a sorted sequence can lead it. */
  lemma PrependSorted<T(!new)>(x: T, s: seq<T>, cmp: (T, T) -> int)
    requires Consistent(cmp)
    requires Sorted(s, cmp)
    requires |s| > 0 && cmp(x, s[0]) <= 0
    ensures Sorted([x] + s, cmp)
  {
    var r := [x] + s;
    forall i, j | 0 <= i < j < |r| ensures cmp(r[i], r[j]) <= 0 {
      if i == 0 && j > 1 {
        assert cmp(s[0], s[j - 1]) <= 0;
      }
    }
  }

  /** With a consistent comparator the result is sorted. */
  lemma {:induction false} SortBySorted<T(!new)>(s: seq<T>, cmp: (T, T) -> int)
    requires Consistent(cmp)
    ensures Sorted(SortBy(s, cmp), cmp)
  {
    if |s| > 0 {
      SortBySorted(s[..|s| - 1], cmp);
      InsertSorted(s[|s| - 1], SortBy(s[..|s| - 1], cmp), cmp);
    }
  }

  // ---------------------------------------------------------------------------
  // Stability: elements that compare equal keep their input order
  // ---------------------------------------------------------------------------

  /** The elements that compare equal to `x`. */
  function Ties<T>(cmp: (T, T) -> int, x: T): T -> bool
  {
    (e: T) => cmp(e, x) == 0
  }

  /** An element strictly before the head of a sorted sequence ties with
      none of its elements, so nothing in it ties with what `y` ties with. */
  lemma NoTiesAfter<T(!new)>(y: T, t: seq<T>, cmp: (T, T) -> int, x: T)
    requires Consistent(cmp)
    requires Sorted(t, cmp)
    requires |t| > 0 && cmp(y, t[0]) < 0 && cmp(y, x) == 0
    ensures Filter(t, Ties(cmp, x)) == []
  {
  }

  /** Inserting into a sorted sequence places the new element after every
      element that ties with it. */
  lemma {:induction false} InsertStable<T(!new)>(y: T, t: seq<T>, cmp: (T, T) -> int, x: T)
    requires Consistent(cmp)
    requires Sorted(t, cmp)
    ensures Filter(Insert(y, t, cmp), Ties(cmp, x)) == Filter(t, Ties(cmp, x)) + Filter([y], Ties(cmp, x))
  {
    var p := Ties(cmp, x);
    if |t| == 0 {
      assert Insert(y, t, cmp) == [y];
    } else if cmp(y, t[0]) < 0 {
      FilterConcat([y], t, p);
      if p(y) {
        NoTiesAfter(y, t, cmp, x);
      }
    } else {
      var rest := t[1..];
      SortedTail(t, cmp);
      InsertStable(y, rest, cmp, x);
      assert t == [t[0]] + rest;
      FilterConcat([t[0]], Insert(y, rest, cmp), p);
      FilterConcat([t[0]], rest, p);
      AppendAssociative(Filter([t[0]], p), Filter(rest, p), Filter([y], p));
    }
  }

  /** The sort is stable: the elements tying with any `x` come out in the
      order they went in. */
  lemma {:induction false} SortByStable<T(!new)>(s: seq<T>, cmp: (T, T) -> int, x: T)
    requires Consistent(cmp)
    ensures Filter(SortBy(s, cmp), Ties(cmp, x)) == Filter(s, Ties(cmp, x))
  {
    if |s| > 0 {
      var init, last := s[..|s| - 1], s[|s| - 1];
      SortByStable(init, cmp, x);
      SortBySorted(init, cmp);
      InsertStable(last, SortBy(init, cmp), cmp, x);
      assert s == init + [last];
      FilterConcat(init, [last], Ties(cmp, x));
    }
  }

  lemma SortedTail<T>(s: seq<T>, cmp: (T, T) -> int)
    requires Sorted(s, cmp) && |s| > 0
    ensures Sorted(s[1..], cmp)
  {
    var rest := s[1..];
    forall i, j | 0 <= i < j < |rest| ensures cmp(rest[i], rest[j]) <= 0 {
      assert rest[i] == s[i + 1] && rest[j] == s[j + 1];
    }
  }

  /** Every element ties with itself, so agreeing on its tie class puts
      it in both sequences. */
  lemma InBothByTies<T(!new)>(a: seq<T>, b: seq<T>, cmp: (T, T) -> int, e: T)
    requires Consistent(cmp)
    requires Filter(a, Ties(cmp, e)) == Filter(b, Ties(cmp, e))
    requires e in b
    ensures e in a
  {
    assert Sign(cmp(e, e)) == -Sign(cmp(e, e));
    assert e in Filter(b, Ties(cmp, e));
  }

  /** The heads of two sorted sequences holding each other's heads tie. */
  lemma SortedHeadsTie<T(!new)>(a: seq<T>, b: seq<T>, cmp: (T, T) -> int)
    requires Consistent(cmp)
    requires Sorted(a, cmp) && Sorted(b, cmp)
    requires |a| > 0 && |b| > 0 && a[0] in b && b[0] in a
    ensures cmp(b[0], a[0]) == 0
  {
    var j :| 0 <= j < |a| && a[j] == b[0];
    var k :| 0 <= k < |b| && b[k] == a[0];
    assert cmp(a[0], a[j]) <= 0 || j == 0;
    assert cmp(b[0], b[k]) <= 0 || k == 0;
    assert Sign(cmp(a[0], a[0])) == -Sign(cmp(a[0], a[0]));
    assert Sign(cmp(b[0], a[0])) == -Sign(cmp(a[0], b[0]));
  }

  /** Equal heads leave the tie classes of the tails in agreement. */
  lemma TailTiesAgree<T(!new)>(a: seq<T>, b: seq<T>, cmp: (T, T) -> int, x: T)
    requires |a| > 0 && |b| > 0 && a[0] == b[0]
    requires Filter(a, Ties(cmp, x)) == Filter(b, Ties(cmp, x))
    ensures Filter(a[1..], Ties(cmp, x)) == Filter(b[1..], Ties(cmp, x))
  {
    var p := Ties(cmp, x);
    if p(a[0]) {
      assert Filter(a, p) == [a[0]] + Filter(a[1..], p);
      assert Filter(b, p) == [b[0]] + Filter(b[1..], p);
      assert Filter(a[1..], p) == Filter(a, p)[1..];
      assert Filter(b[1..], p) == Filter(b, p)[1..];
    } else {
      assert Filter(a[1..], p) == Filter(a, p);
      assert Filter(b[1..], p) == Filter(b, p);
    }
  }

  /** Two sorted sequences of one length whose tie classes come in the same
      order are equal: the order a stable sort produces is unique. */
  lemma {:induction false} StableOrderUnique<T(!new)>(a: seq<T>, b: seq<T>, cmp: (T, T) -> int)
    requires Consistent(cmp)
    requires Sorted(a, cmp) && Sorted(b, cmp) && |a| == |b|
    requires forall x :: Filter(a, Ties(cmp, x)) == Filter(b, Ties(cmp, x))
    ensures a == b
  {
    if |a| > 0 {
      var a0, b0 := a[0], b[0];
      InBothByTies(a, b, cmp, b0);
      InBothByTies(b, a, cmp, a0);
      SortedHeadsTie(a, b, cmp);
      var p := Ties(cmp, a0);
      assert p(a0) && p(b0);
      assert Filter(a, p)[0] == a0 && Filter(b, p)[0] == b0;
      forall x ensures Filter(a[1..], Ties(cmp, x)) == Filter(b[1..], Ties(cmp, x)) {
        TailTiesAgree(a, b, cmp, x);
      }
      SortedTail(a, cmp);
      SortedTail(b, cmp);
      StableOrderUnique(a[1..], b[1..], cmp);
      assert a == [a0] + a[1..] && b == [b0] + b[1..];
    }
  }

  /** Any stable sort under a consistent comparator, whatever its algorithm,
      returns exactly the order of `SortBy`. */
  lemma StableSortIsSortBy<T(!new)>(s: seq<T>, r: seq<T>, cmp: (T, T) -> int)
    requires Consistent(cmp)
    requires Sorted(r, cmp) && |r| == |s|
    requires forall x :: Filter(r, Ties(cmp, x)) == Filter(s, Ties(cmp, x))
    ensures r == SortBy(s, cmp)
  {
    SortBySorted(s, cmp);
    forall x ensures Filter(SortBy(s, cmp), Ties(cmp, x)) == Filter(s, Ties(cmp, x)) {
      SortByStable(s, cmp, x);
    }
    StableOrderUnique(r, SortBy(s, cmp), cmp);
  }
}

=== FILE: strauss_data.dfy ===
/**
 * Reading the "RS" sheet into records (Richard_Strauss.js,
 * `getRichardStraussData`): the header row is turned into a map from
 * trimmed, lower-cased column names to column indices, the eight required
 * columns are checked, and every later row becomes one record. Only the
 * first eight columns of the sheet are read.
 */
module StraussData {
  import opened Wrappers
  import opened JsText

  /** The server-side helpers whose source is not part of this model, and
      the engine services the search code calls. */
  datatype Helpers = Helpers(
    normalize: Cell -> string,        // normalizeString(x)
    escape: Cell -> string,           // escapeHtml(x)
    lower: string -> string,          // s.toLowerCase()
    toNumber: string -> Option<int>,  // Number(s); None for NaN
    parsePages: string -> set<int>,   // parsePageInput(s)
    inherited: string -> string       // String(o[k]) for a member k that o inherits from Object.prototype
  )

  /** A data row as an object keyed by header name. */
  type Record = map<string, Cell>

  /** `row[key]`: `undefined` for a key the object lacks. */
  function Field(r: Record, key: string): (c: Cell)
    ensures key !in r ==> c == Undefined
  {
    if key in r then r[key] else Undefined
  }

  /** Why loading failed; each is thrown and becomes the caller's error
      message. */
  datatype LoadError =
    | SheetMissing                   // シート「RS」が見つかりません。
    | MissingHeader(header: string)  // シート「RS」に必要なヘッダー「…」がありません。

  /** The columns every record must have, in the order they are checked. */
  const RequiredHeaders: seq<string> :=
    ["oper", "aufzug", "szene", "page", "whom", "de", "ja", "de_normalized"]

  /** `col.toString().trim().toLowerCase()`; `lower` is the engine's
      `toLowerCase`. */
  function HeaderKey(col: Cell, lower: string -> string): string
  {
    lower(Trim(ToJsString(col)))
  }

  /** The name each header cell gives its column; `None` for a falsy cell,
      which the `if (col)` of line 40 skips, and for a cell naming the
      `__proto__` accessor, whose assignment of a column number on `{}`
      creates no key. */
  function HeaderNames(header: seq<Cell>, lower: string -> string): (names: seq<Option<string>>)
    ensures |names| == |header|
    ensures forall i :: 0 <= i < |header| ==>
      names[i] == if Truthy(header[i]) && HeaderKey(header[i], lower) != ProtoAccessor
        then Some(HeaderKey(header[i], lower)) else None
  {
    seq(|header|, i requires 0 <= i < |header| =>
      if Truthy(header[i]) && HeaderKey(header[i], lower) != ProtoAccessor
      then Some(HeaderKey(header[i], lower)) else None)
  }

  /** The object built by the `reduce` of line 40, from the column names:
      a name maps to the LAST column that carries it, and nothing else is
      in the map. */
  function IndexMap(names: seq<Option<string>>): (m: map<string, nat>)
    ensures forall k :: k in m <==> Some(k) in names
    ensures forall k :: k in m ==> m[k] < |names| && names[m[k]] == Some(k)
    ensures forall k :: k in m ==> forall j :: m[k] < j < |names| ==> names[j] != Some(k)
  {
    if |names| == 0 then map[]
    else
      var init := names[..|names| - 1];
      var m := IndexMap(init);
      assert names == init + [names[|names| - 1]];
      match names[|names| - 1]
      case None => m
      case Some(k) => m[k := |names| - 1]
  }

  /** The number of columns read: `sheet.getRange(1, 1, lastRow, 8)`. */
  const SheetWidth: nat := 8

  /** A row of the sheet as `getValues()` returns it for the eight-column
      range: cut to eight cells, an empty cell reading as "". */
  function Window(row: seq<Cell>): (w: seq<Cell>)
    ensures |w| == SheetWidth
    ensures forall i :: 0 <= i < SheetWidth ==> w[i] == if i < |row| then row[i] else Str("")
  {
    seq(SheetWidth, i requires 0 <= i < SheetWidth => if i < |row| then row[i] else Str(""))
  }

  /** `headerMap` of line 40; it never holds `__proto__`. */
  function HeaderMap(header: seq<Cell>, lower: string -> string): (m: map<string, nat>)
    ensures ProtoAccessor !in m
  {
    IndexMap(HeaderNames(header, lower))
  }

  /** Position of the first required column the map lacks, in the order
      of `required` (the `for ... of` loop of line 42 throws there). */
  function FirstMissing(m: map<string, nat>, required: seq<string>): (r: Option<nat>)
    ensures r.None? <==> forall k :: 0 <= k < |required| ==> required[k] in m
    ensures r.Some? ==> r.value < |required| && required[r.value] !in m
    ensures r.Some? ==> forall j :: 0 <= j < r.value ==> required[j] in m
  {
    if |required| == 0 then None
    else if required[0] !in m then Some(0)
    else
      match FirstMissing(m, required[1..])
      case None => None
      case Some(k) => Some(k + 1)
  }

  /** The object built for one data row: one field per mapped header. */
  function RowRecord(row: seq<Cell>, m: map<string, nat>): (r: Record)
    ensures forall k :: k in r <==> k in m
    ensures forall k :: k in m ==> r[k] == CellAt(row, m[k])
  {
    map k | k in m :: CellAt(row, m[k])
  }

  /** `data.map(...)` of line 43: one record per data row, in order, each
      read through the eight-column window. */
  function RowRecords(rows: seq<seq<Cell>>, m: map<string, nat>): (r: seq<Record>)
    ensures |r| == |rows|
    ensures forall i :: 0 <= i < |rows| ==> r[i] == RowRecord(Window(rows[i]), m)
  {
    if |rows| == 0 then [] else [RowRecord(Window(rows[0]), m)] + RowRecords(rows[1..], m)
  }

  /** `getRichardStraussData()` on the sheet's cells (`None` when there is
      no "RS" sheet), checking the columns `required`. With fewer than two
      rows there is no data and the header is not checked. Header and data
      rows are read through the eight-column window. */
  function LoadSheet(sheet: Option<seq<seq<Cell>>>, required: seq<string>, lower: string -> string)
    : (r: Result<seq<Record>, LoadError>)
    ensures sheet.None? <==> r == Err(SheetMissing)
    ensures sheet.Some? && |sheet.value| < 2 ==> r == Ok([])
    ensures r.Ok? && sheet.Some? && |sheet.value| >= 2 ==> |r.value| == |sheet.value| - 1
    ensures r.Ok? && sheet.Some? && |sheet.value| >= 2 ==> forall i :: 0 <= i < |r.value| ==>
      r.value[i] == RowRecord(Window(sheet.value[i + 1]), HeaderMap(Window(sheet.value[0]), lower))
    ensures r.Ok? ==> forall i, k :: 0 <= i < |r.value| && 0 <= k < |required| ==> required[k] in r.value[i]
    ensures r.Err? && sheet.Some? ==>
      && r.error.MissingHeader?
      && r.error.header !in HeaderMap(Window(sheet.value[0]), lower)
      && exists k :: 0 <= k < |required| && required[k] == r.error.header
           && forall j :: 0 <= j < k ==> required[j] in HeaderMap(Window(sheet.value[0]), lower)
  {
    match sheet
    case None => Err(SheetMissing)
    case Some(rows) =>
      if |rows| < 2 then Ok([])
      else
        var m := HeaderMap(Window(rows[0]), lower);
        match FirstMissing(m, required)
        case Some(k) => Err(MissingHeader(required[k]))
        case None => Ok(RowRecords(rows[1..], m))
  }

  /** The "RS" sheet with its eight required columns. */
  function LoadRecords(sheet: Option<seq<seq<Cell>>>, lower: string -> string): Result<seq<Record>, LoadError>
  {
    LoadSheet(sheet, RequiredHeaders, lower)
  }

  /** A truthy header cell is a key of the map exactly when it does not
      name `__proto__`, and then at its own column or a later one with the
      same name. */
  lemma HeaderMapCoversHeaders(header: seq<Cell>, lower: string -> string, i: nat)
    requires i < |header| && Truthy(header[i])
    ensures HeaderKey(header[i], lower) in HeaderMap(header, lower) <==> HeaderKey(header[i], lower) != ProtoAccessor
    ensures HeaderKey(header[i], lower) in HeaderMap(header, lower) ==>
      i <= HeaderMap(header, lower)[HeaderKey(header[i], lower)]
  {
    var names := HeaderNames(header, lower);
    if HeaderKey(header[i], lower) != ProtoAccessor {
      assert names[i] == Some(HeaderKey(header[i], lower));
    }
  }

  /** A header cell reading `__proto__` gives no record a field of that
      name, since `headerMap` never gets the key that `for ... in` walks. */
  lemma NoProtoField(sheet: Option<seq<seq<Cell>>>, required: seq<string>, lower: string -> string)
    ensures var r := LoadSheet(sheet, required, lower);
      r.Ok? ==> forall i :: 0 <= i < |r.value| ==> ProtoAccessor !in r.value[i]
  {
  }

  /** A header name the loader finds comes from one of the first eight
      header cells: a required column placed further right counts as
      missing. */
  lemma HeaderWithinWindow(header: seq<Cell>, lower: string -> string, key: string)
    requires key in HeaderMap(Window(header), lower)
    ensures exists i :: 0 <= i < SheetWidth && i < |header| && Truthy(header[i]) && HeaderKey(header[i], lower) == key
  {
    var w := Window(header);
    var i := HeaderMap(w, lower)[key];
    assert HeaderNames(w, lower)[i] == Some(key);
    assert Truthy(w[i]);
    assert i < |header| && w[i] == header[i];
  }

  /** The loader reads nothing beyond the eighth column: sheets that agree
      on their first eight columns load alike. */
  lemma LoadSheetReadsEightColumns(a: seq<seq<Cell>>, b: seq<seq<Cell>>, required: seq<string>, lower: string -> string)
    requires |a| == |b|
    requires forall i :: 0 <= i < |a| ==> Window(a[i]) == Window(b[i])
    ensures LoadSheet(Some(a), required, lower) == LoadSheet(Some(b), required, lower)
  {
    if |a| >= 2 {
      var m := HeaderMap(Window(a[0]), lower);
      var ra, rb := RowRecords(a[1..], m), RowRecords(b[1..], m);
      assert forall i :: 0 <= i < |ra| ==> ra[i] == RowRecord(Window(a[i + 1]), m) == rb[i];
      assert ra == rb;
    }
  }

  /** A required column whose header appears only beyond the eighth
      column is reported missing, even though the sheet holds it. */
  lemma RequiredBeyondWindowIsMissing(rows: seq<seq<Cell>>, lower: string -> string, k: nat)
    requires |rows| >= 2 && k < |RequiredHeaders|
    requires forall i :: 0 <= i < SheetWidth && i < |rows[0]| && Truthy(rows[0][i]) ==>
      HeaderKey(rows[0][i], lower) != RequiredHeaders[k]
    ensures LoadRecords(Some(rows), lower).Err?
  {
    if RequiredHeaders[k] in HeaderMap(Window(rows[0]), lower) {
      HeaderWithinWindow(rows[0], lower, RequiredHeaders[k]);
    }
  }
}

=== FILE: strauss_grouping.dfy ===
/**
 * Grouping the rows found by the term search under their German text
 * (the `reduce` of `searchRSTerms`, Richard_Strauss.js lines 217-224), and
 * the order in which the groups are listed (line 227).
 *
 * The object the source reduces into is a plain `{}`, so it inherits the
 * members of `Object.prototype`; `GroupRowsAsWritten` models that and shows
 * the failure it causes, `GroupRows` is the grouping the code intends.
 */
module StraussGrouping {
  import opened Wrappers
  import opened JsText
  import opened Seqs
  import opened Sorting
  import opened StraussData

  /** Heading used for a row without German text. */
  const NoGerman: string := "（ドイツ語なし）"

  /** The property key a row is grouped under: `String(row.de || NoGerman)`. */
  function GroupKey(row: Record): string
  {
    ToJsString(Or(Field(row, "de"), Str(NoGerman)))
  }

  datatype Group = Group(key: string, rows: seq<Record>)

  function KeyTest(key: string): Record -> bool
  {
    (x: Record) => GroupKey(x) == key
  }

  /** The rows of `rows` grouped under `key`, in their order. */
  function KeyRows(rows: seq<Record>, key: string): (r: seq<Record>)
    ensures forall k :: 0 <= k < |r| ==> GroupKey(r[k]) == key
    ensures forall x :: x in r <==> x in rows && GroupKey(x) == key
  {
    Filter(rows, KeyTest(key))
  }

  /** Position of the group with key `key`. */
  function KeyIndex(groups: seq<Group>, key: string): (r: Option<nat>)
    ensures r.Some? ==> r.value < |groups| && groups[r.value].key == key
    ensures r.Some? ==> forall k :: 0 <= k < r.value ==> groups[k].key != key
    ensures r.None? ==> forall k :: 0 <= k < |groups| ==> groups[k].key != key
  {
    FindIndex(groups, (g: Group) => g.key == key)
  }

  /** One step of the `reduce`: push the row onto its key's group, opening
      the group (at the end of the key order) when the key is new. */
  function AddToGroup(groups: seq<Group>, row: Record): (r: seq<Group>)
    ensures |r| == |groups| || |r| == |groups| + 1
  {
    match KeyIndex(groups, GroupKey(row))
    case Some(i) => groups[i := Group(groups[i].key, groups[i].rows + [row])]
    case None => groups + [Group(GroupKey(row), [row])]
  }

  /** The `reduce` over the found rows, with its keys in insertion order. */
  function GroupRows(rows: seq<Record>): (r: seq<Group>)
    ensures |r| <= |rows|
  {
    if |rows| == 0 then []
    else AddToGroup(GroupRows(rows[..|rows| - 1]), rows[|rows| - 1])
  }

  predicate DistinctKeys(groups: seq<Group>)
  {
    forall i, j :: 0 <= i < j < |groups| ==> groups[i].key != groups[j].key
  }

  /** `groups` sorts `rows` by key: one non-empty group per key, holding
      exactly the rows with that key in their order, and every row's key
      has a group. */
  predicate Partitions(groups: seq<Group>, rows: seq<Record>)
  {
    DistinctKeys(groups) && HoldKeyRows(groups, rows) && Covers(groups, rows)
  }

  /** Each group is non-empty and holds exactly the rows with its key. */
  predicate HoldKeyRows(groups: seq<Group>, rows: seq<Record>)
  {
    forall i :: 0 <= i < |groups| ==> groups[i].rows != [] && groups[i].rows == KeyRows(rows, groups[i].key)
  }

  /** Every row's key has a group. */
  predicate Covers(groups: seq<Group>, rows: seq<Record>)
  {
    forall y :: y in rows ==> KeyIndex(groups, GroupKey(y)).Some?
  }

  /** Appending a row extends its own key's rows and no other. */
  lemma KeyRowsSnoc(p: seq<Record>, x: Record, key: string)
    ensures KeyRows(p + [x], key) == KeyRows(p, key) + (if GroupKey(x) == key then [x] else [])
  {
    FilterConcat(p, [x], KeyTest(key));
    assert Filter([x], KeyTest(key)) == (if GroupKey(x) == key then [x] else []) by {
      assert [x][1..] == [];
    }
  }

  /** A key no row carries has no rows. */
  lemma KeyRowsAbsent(p: seq<Record>, key: string)
    requires forall k :: 0 <= k < |p| ==> GroupKey(p[k]) != key
    ensures KeyRows(p, key) == []
  {
    var r := KeyRows(p, key);
    FilterMultiset(p, KeyTest(key));
    assert multiset(r) == multiset{};
  }

  /** Every group's key is the key of one of the rows. */
  lemma GroupKeyOccurs(g: seq<Group>, p: seq<Record>, i: nat)
    requires Partitions(g, p) && i < |g|
    ensures exists k :: 0 <= k < |p| && GroupKey(p[k]) == g[i].key
  {
    var y := g[i].rows[0];
    assert y in KeyRows(p, g[i].key);
    var k :| 0 <= k < |p| && p[k] == y;
  }

  /** Keeping the keys of the groups in place and giving the new row's key
      a group covers the extended rows. */
  lemma CoversSnoc(g: seq<Group>, r: seq<Group>, p: seq<Record>, x: Record)
    requires Covers(g, p)
    requires |g| <= |r| && forall k :: 0 <= k < |g| ==> r[k].key == g[k].key
    requires KeyIndex(r, GroupKey(x)).Some?
    ensures Covers(r, p + [x])
  {
    forall y | y in p + [x] ensures KeyIndex(r, GroupKey(y)).Some? {
      if y in p {
        KeyIndexFinds(r, GroupKey(y), KeyIndex(g, GroupKey(y)).value);
      }
    }
  }

  /** A key some group carries is found. */
  lemma KeyIndexFinds(groups: seq<Group>, key: string, j: nat)
    requires j < |groups| && groups[j].key == key
    ensures KeyIndex(groups, key).Some?
  {
  }

  lemma HoldKeyRowsExisting(g: seq<Group>, p: seq<Record>, x: Record, i: nat)
    requires DistinctKeys(g) && HoldKeyRows(g, p)
    requires KeyIndex(g, GroupKey(x)) == Some(i)
    ensures HoldKeyRows(AddToGroup(g, x), p + [x])
  {
    var kx := GroupKey(x);
    var r := AddToGroup(g, x);
    assert r == g[i := Group(kx, g[i].rows + [x])];
    forall j | 0 <= j < |r| ensures r[j].rows != [] && r[j].rows == KeyRows(p + [x], r[j].key) {
      KeyRowsSnoc(p, x, r[j].key);
      if j != i {
        assert r[j] == g[j] && g[j].key != kx;
      }
    }
  }

  /** A row with a new key opens a group of its own at the end; the
      existing groups keep their rows. */
  lemma HoldKeyRowsNew(g: seq<Group>, p: seq<Record>, x: Record)
    requires HoldKeyRows(g, p) && Covers(g, p)
    requires KeyIndex(g, GroupKey(x)).None?
    ensures HoldKeyRows(AddToGroup(g, x), p + [x])
  {
    var kx := GroupKey(x);
    var r := AddToGroup(g, x);
    assert r == g + [Group(kx, [x])];
    forall k | 0 <= k < |p| ensures GroupKey(p[k]) != kx {
      assert p[k] in p;
      var j := KeyIndex(g, GroupKey(p[k])).value;
      assert g[j].key == GroupKey(p[k]);
    }
    KeyRowsAbsent(p, kx);
    forall j | 0 <= j < |r| ensures r[j].rows != [] && r[j].rows == KeyRows(p + [x], r[j].key) {
      KeyRowsSnoc(p, x, r[j].key);
      if j < |g| {
        assert r[j] == g[j] && g[j].key != kx;
      }
    }
  }

  /** Adding a row keeps every key in place and gives the row's key a
      group. */
  lemma AddToGroupKeys(g: seq<Group>, x: Record)
    ensures var r := AddToGroup(g, x);
      && |g| <= |r|
      && (forall k :: 0 <= k < |g| ==> r[k].key == g[k].key)
      && KeyIndex(r, GroupKey(x)).Some?
  {
    var r := AddToGroup(g, x);
    assert r[if KeyIndex(g, GroupKey(x)).Some? then KeyIndex(g, GroupKey(x)).value else |g|].key == GroupKey(x);
  }

  /** Adding a row opens a group only for a key that has none. */
  lemma DistinctKeysAdd(g: seq<Group>, x: Record)
    requires DistinctKeys(g)
    ensures DistinctKeys(AddToGroup(g, x))
  {
  }

  /** One step of the `reduce` keeps the partition. */
  lemma AddToGroupPartitions(g: seq<Group>, p: seq<Record>, x: Record)
    requires Partitions(g, p)
    ensures Partitions(AddToGroup(g, x), p + [x])
  {
    AddToGroupKeys(g, x);
    CoversSnoc(g, AddToGroup(g, x), p, x);
    DistinctKeysAdd(g, x);
    match KeyIndex(g, GroupKey(x))
    case Some(i) => HoldKeyRowsExisting(g, p, x, i);
    case None => HoldKeyRowsNew(g, p, x);
  }

  /** The grouping partitions the rows by key. */
  lemma {:induction false} GroupRowsPartitions(rows: seq<Record>)
    ensures Partitions(GroupRows(rows), rows)
  {
    if |rows| > 0 {
      var p, x := rows[..|rows| - 1], rows[|rows| - 1];
      assert rows == p + [x];
      GroupRowsPartitions(p);
      AddToGroupPartitions(GroupRows(p), p, x);
    }
  }

  // ---------------------------------------------------------------------------
  // Listing order of the groups
  // ---------------------------------------------------------------------------

  /** Groups ordered by key with `collate` (`a.localeCompare(b, 'de')`). */
  function GroupOrder(collate: (string, string) -> int): (Group, Group) -> int
  {
    (g1: Group, g2: Group) => collate(g1.key, g2.key)
  }

  /** The groups in listing order. */
  function SortGroups(groups: seq<Group>, collate: (string, string) -> int): (r: seq<Group>)
    ensures multiset(r) == multiset(groups)
  {
    SortBy(groups, GroupOrder(collate))
  }

  /** An element found at two positions occurs at least twice. */
  lemma TwoPositions<T>(s: seq<T>, i: nat, j: nat)
    requires i < j < |s| && s[i] == s[j]
    ensures multiset(s)[s[i]] >= 2
  {
    var a, b := s[..j], s[j..];
    assert s == a + b;
    assert s[i] in a && b[0] == s[i];
    assert multiset(b)[s[i]] >= 1;
  }

  /** With distinct keys, no group occurs twice. */
  lemma {:induction false} DistinctKeysOnce(groups: seq<Group>, g: Group)
    requires DistinctKeys(groups)
    ensures multiset(groups)[g] <= 1
  {
    if |groups| > 0 {
      var tail := groups[1..];
      assert groups == [groups[0]] + tail;
      DistinctKeysOnce(tail, g);
    }
  }

  /** Reordering a partition leaves a partition. */
  lemma PartitionsPermutation(a: seq<Group>, b: seq<Group>, rows: seq<Record>)
    requires Partitions(a, rows) && multiset(a) == multiset(b)
    ensures Partitions(b, rows)
  {
    forall i | 0 <= i < |b| ensures b[i] in a {
      assert b[i] in multiset(b);
    }
    forall i, j | 0 <= i < j < |b| ensures b[i].key != b[j].key {
      if b[i].key == b[j].key {
        var i', j' :| 0 <= i' < |a| && 0 <= j' < |a| && a[i'] == b[i] && a[j'] == b[j];
        assert a[i'] == a[j'];
        TwoPositions(b, i, j);
        DistinctKeysOnce(a, b[i]);
      }
    }
    forall y | y in rows ensures KeyIndex(b, GroupKey(y)).Some? {
      var g := a[KeyIndex(a, GroupKey(y)).value];
      assert g in multiset(a);
      var j :| 0 <= j < |b| && b[j] == g;
      KeyIndexFinds(b, GroupKey(y), j);
    }
  }

  /** The listed groups still partition the rows, and with a consistent
      collation they are in key order. */
  lemma SortedGroupsPartition(rows: seq<Record>, collate: (string, string) -> int)
    ensures Partitions(SortGroups(GroupRows(rows), collate), rows)
    ensures Consistent(GroupOrder(collate)) ==> Sorted(SortGroups(GroupRows(rows), collate), GroupOrder(collate))
  {
    GroupRowsPartitions(rows);
    PartitionsPermutation(GroupRows(rows), SortGroups(GroupRows(rows), collate), rows);
    if Consistent(GroupOrder(collate)) {
      SortBySorted(GroupRows(rows), GroupOrder(collate));
    }
  }

  // ---------------------------------------------------------------------------
  // The grouping as written: `acc[de]` on a plain `{}`
  // ---------------------------------------------------------------------------

  /** One step of the `reduce` as written: a new key that names an
      inherited member skips the `acc[de] = []` initialisation and the
      `push` then throws a TypeError (`None`). */
  function AddToGroupAsWritten(acc: Option<seq<Group>>, row: Record): Option<seq<Group>>
  {
    match acc
    case None => None
    case Some(groups) =>
      if KeyIndex(groups, GroupKey(row)).None? && GroupKey(row) in InheritedNames then None
      else Some(AddToGroup(groups, row))
  }

  /** The `reduce` as written: it only fails on some row whose key names
      an inherited member. */
  function GroupRowsAsWritten(rows: seq<Record>): (r: Option<seq<Group>>)
    ensures r.None? ==> HitsInherited(rows)
  {
    if |rows| == 0 then Some([])
    else AddToGroupAsWritten(GroupRowsAsWritten(rows[..|rows| - 1]), rows[|rows| - 1])
  }

  /** Some row's key names an inherited member. */
  predicate HitsInherited(rows: seq<Record>)
  {
    exists k :: 0 <= k < |rows| && GroupKey(rows[k]) in InheritedNames
  }

  lemma HitsInheritedSnoc(p: seq<Record>, x: Record)
    ensures HitsInherited(p + [x]) <==> HitsInherited(p) || GroupKey(x) in InheritedNames
  {
    var rows := p + [x];
    if HitsInherited(p) {
      var k :| 0 <= k < |p| && GroupKey(p[k]) in InheritedNames;
      assert rows[k] == p[k];
    }
    if GroupKey(x) in InheritedNames {
      assert rows[|p|] == x;
    }
  }

  /** The written grouping fails exactly when some row's key names an
      inherited member, and otherwise agrees with the intended one. */
  lemma {:induction false} GroupRowsAsWrittenFails(rows: seq<Record>)
    ensures GroupRowsAsWritten(rows).None? <==> HitsInherited(rows)
    ensures GroupRowsAsWritten(rows).Some? ==> GroupRowsAsWritten(rows).value == GroupRows(rows)
  {
    if |rows| > 0 {
      var p, x := rows[..|rows| - 1], rows[|rows| - 1];
      assert rows == p + [x];
      GroupRowsAsWrittenFails(p);
      HitsInheritedSnoc(p, x);
      if GroupRowsAsWritten(p).Some? {
        GroupRowsPartitions(p);
        var g := GroupRows(p);
        if KeyIndex(g, GroupKey(x)).Some? {
          GroupKeyOccurs(g, p, KeyIndex(g, GroupKey(x)).value);
        }
      }
    }
  }

  /** A found row whose German text is "constructor" makes the written
      grouping throw, while the intended grouping lists it. */
  lemma ConstructorKeyThrows(row: Record)
    requires Field(row, "de") == Str("constructor")
    ensures GroupRowsAsWritten([row]).None?
    ensures GroupRows([row]) == [Group("constructor", [row])]
  {
    assert [row][..0] == [];
    assert GroupKey(row) == "constructor";
  }
}

=== FILE: strauss_search.dfy ===
/**
 * The two score-location searches of Richard_Strauss.js: by scene
 * (`searchRichardStraussByScene`) and by page number
 * (`searchRichardStraussByPage`). Both load the "RS" records, keep the rows
 * of the requested opera that carry a page, and hand the kept rows, in
 * sheet order, to the shared result formatter together with the opera's
 * score information.
 */
module StraussSearch {
  import opened Wrappers
  import opened JsText
  import opened Seqs
  import opened StraussData

  /** The row has a `page` that is neither `undefined`, `null` nor blank. */
  predicate HasPage(row: Record)
  {
    var p := Field(row, "page");
    !p.Undefined? && !p.Null? && !IsBlank(ToJsString(p))
  }

  /** One half of a scene code: the act or scene cell, `'0'` when falsy,
      as a trimmed lower-case string. */
  function ScenePart(c: Cell, lower: string -> string): string
  {
    lower(Trim(ToJsString(Or(c, Str("0")))))
  }

  /** The row's scene code, `aufzug-szene`. */
  function SceneCode(row: Record, lower: string -> string): string
  {
    ScenePart(Field(row, "aufzug"), lower) + "-" + ScenePart(Field(row, "szene"), lower)
  }

  /** The row belongs to the requested opera: both names normalise alike. */
  predicate SameOpera(row: Record, opera: string, h: Helpers)
  {
    h.normalize(Field(row, "oper")) == h.normalize(Str(opera))
  }

  /** The scene search keeps a row of the opera with a page whose scene
      code was selected, or every such row when "all" was selected. */
  predicate SceneKeeps(row: Record, opera: string, scenes: seq<string>, h: Helpers)
  {
    && HasPage(row)
    && SameOpera(row, opera, h)
    && ("all" in scenes || SceneCode(row, h.lower) in scenes)
  }

  /** The `allData.filter(...)` of the scene search. */
  function SceneFilter(records: seq<Record>, opera: string, scenes: seq<string>, h: Helpers)
    : (r: seq<Record>)
    ensures IsSubsequence(r, records)
    ensures forall k :: 0 <= k < |r| ==> SceneKeeps(r[k], opera, scenes, h)
    ensures forall x :: multiset(r)[x] == if SceneKeeps(x, opera, scenes, h) then multiset(records)[x] else 0
  {
    var keep := (x: Record) => SceneKeeps(x, opera, scenes, h);
    FilterMultiset(records, keep);
    FilterIsSubsequence(records, keep);
    Filter(records, keep)
  }

  /** Selecting "all" makes every other selected scene irrelevant. */
  lemma SceneAllShortcut(records: seq<Record>, opera: string, scenes: seq<string>, h: Helpers)
    requires "all" in scenes
    ensures SceneFilter(records, opera, scenes, h) == SceneFilter(records, opera, ["all"], h)
  {
    FilterCongruent(records, (x: Record) => SceneKeeps(x, opera, scenes, h),
                             (x: Record) => SceneKeeps(x, opera, ["all"], h));
  }

  /** Selecting more scenes never loses a row, and rows keep their order. */
  lemma SceneFilterMonotone(records: seq<Record>, opera: string, s1: seq<string>, s2: seq<string>, h: Helpers)
    requires forall k :: 0 <= k < |s1| ==> s1[k] in s2
    ensures IsSubsequence(SceneFilter(records, opera, s1, h), SceneFilter(records, opera, s2, h))
  {
    FilterWeaker(records, (x: Record) => SceneKeeps(x, opera, s1, h),
                          (x: Record) => SceneKeeps(x, opera, s2, h));
  }

  /** A missing, empty or zero act or scene number reads as "0". */
  lemma FalsyScenePartIsZero(c: Cell, lower: string -> string)
    requires !Truthy(c)
    ensures ScenePart(c, lower) == lower("0")
  {
    var z := "0";
    assert Or(c, Str(z)) == Str(z);
    assert !IsJsSpace(z[0]);
    assert TrimStart(z) == z;
    assert TrimEnd(z) == z;
  }

  /** `Number(c)` for a page cell; `None` for NaN. Strings go through the
      engine's `Number`. */
  function PageNumber(c: Cell, toNumber: string -> Option<int>): (r: Option<int>)
    ensures c.Num? ==> r == Some(c.n)
    ensures c.Undefined? ==> r.None?
    ensures c.Str? ==> r == toNumber(c.s)
  {
    match c
    case Undefined => None
    case Null => Some(0)
    case Str(s) => toNumber(s)
    case Num(n) => Some(n)
    case Bool(b) => Some(if b then 1 else 0)
  }

  /** The page search keeps a row of the opera whose page is present, not
      blank, a number, and one of the requested pages. */
  predicate PageKeeps(row: Record, opera: string, pages: set<int>, h: Helpers)
  {
    && SameOpera(row, opera, h)
    && HasPage(row)
    && PageNumber(Field(row, "page"), h.toNumber).Some?
    && PageNumber(Field(row, "page"), h.toNumber).value in pages
  }

  /** The `allData.filter(...)` of the page search. */
  function PageFilter(records: seq<Record>, opera: string, pages: set<int>, h: Helpers)
    : (r: seq<Record>)
    ensures IsSubsequence(r, records)
    ensures forall k :: 0 <= k < |r| ==> PageKeeps(r[k], opera, pages, h)
    ensures forall x :: multiset(r)[x] == if PageKeeps(x, opera, pages, h) then multiset(records)[x] else 0
  {
    var keep := (x: Record) => PageKeeps(x, opera, pages, h);
    FilterMultiset(records, keep);
    FilterIsSubsequence(records, keep);
    Filter(records, keep)
  }

  /** Asking for more pages never loses a row, and rows keep their order. */
  lemma PageFilterMonotone(records: seq<Record>, opera: string, p1: set<int>, p2: set<int>, h: Helpers)
    requires p1 <= p2
    ensures IsSubsequence(PageFilter(records, opera, p1, h), PageFilter(records, opera, p2, h))
  {
    FilterWeaker(records, (x: Record) => PageKeeps(x, opera, p1, h),
                          (x: Record) => PageKeeps(x, opera, p2, h));
  }

  /** A row of the opera whose page is a number cell is found exactly when
      that number is asked for. */
  lemma NumericPageFound(row: Record, opera: string, pages: set<int>, h: Helpers)
    requires SameOpera(row, opera, h)
    requires Field(row, "page").Num?
    ensures PageKeeps(row, opera, pages, h) <==> Field(row, "page").n in pages
  {
    var p := Field(row, "page");
    assert ToJsString(p) != "";
    assert !IsBlank(ToJsString(p)) by {
      var d := ToJsString(p);
      if p.n < 0 {
        assert d[0] == '-';
      } else {
        assert '0' <= d[0] <= '9';
      }
    }
  }

  /** What a search hands to the page: an error message, the "no valid
      page number" message, or the score information and the kept rows. */
  datatype SearchOutcome =
    | Failed(error: LoadError)
    | NoValidPage
    | Listing(scoreInfo: string, rows: seq<Record>)

  /** `scoreInfoMap[normalizeString(operaName)] || ''` */
  function ScoreInfo(scoreInfoMap: map<string, string>, opera: string, h: Helpers): (r: string)
    ensures r != "" ==> h.normalize(Str(opera)) in scoreInfoMap && scoreInfoMap[h.normalize(Str(opera))] == r
    ensures h.normalize(Str(opera)) !in scoreInfoMap ==> r == ""
  {
    var k := h.normalize(Str(opera));
    if k in scoreInfoMap then scoreInfoMap[k] else ""
  }

  /** `searchRichardStraussByScene(operaName, scenes)`; `sheet` is the "RS"
      sheet and `scoreInfoMap` the score information by opera. */
  function SearchByScene(
    sheet: Option<seq<seq<Cell>>>, opera: string, scenes: seq<string>,
    scoreInfoMap: map<string, string>, h: Helpers): (r: SearchOutcome)
    ensures !r.NoValidPage?
    ensures r.Failed? <==> LoadRecords(sheet, h.lower).Err?
    ensures r.Failed? ==> r.error == LoadRecords(sheet, h.lower).error
    ensures r.Listing? ==> r.scoreInfo == ScoreInfo(scoreInfoMap, opera, h)
    ensures r.Listing? ==> r.rows == SceneFilter(LoadRecords(sheet, h.lower).value, opera, scenes, h)
  {
    var info := ScoreInfo(scoreInfoMap, opera, h);
    match LoadRecords(sheet, h.lower)
    case Err(e) => Failed(e)
    case Ok(records) => Listing(info, SceneFilter(records, opera, scenes, h))
  }

  /** `searchRichardStraussByPage(operaName, pageInput)`: the data is loaded
      before the page input is parsed, so a load error wins over an empty
      page set. */
  function SearchByPage(
    sheet: Option<seq<seq<Cell>>>, opera: string, pageInput: string,
    scoreInfoMap: map<string, string>, h: Helpers): (r: SearchOutcome)
    ensures r.Failed? <==> LoadRecords(sheet, h.lower).Err?
    ensures r.Failed? ==> r.error == LoadRecords(sheet, h.lower).error
    ensures r.NoValidPage? <==> LoadRecords(sheet, h.lower).Ok? && h.parsePages(pageInput) == {}
    ensures r.Listing? ==> r.scoreInfo == ScoreInfo(scoreInfoMap, opera, h)
    ensures r.Listing? ==>
      r.rows == PageFilter(LoadRecords(sheet, h.lower).value, opera, h.parsePages(pageInput), h)
  {
    var info := ScoreInfo(scoreInfoMap, opera, h);
    match LoadRecords(sheet, h.lower)
    case Err(e) => Failed(e)
    case Ok(records) =>
      var pages := h.parsePages(pageInput);
      if pages == {} then NoValidPage
      else Listing(info, PageFilter(records, opera, pages, h))
  }
}

=== FILE: strauss_term_search.dfy ===
/**
 * The German-term search of Richard_Strauss.js (`searchRSTerms`): the rows
 * whose German text contains the normalised query and that carry a page,
 * grouped under their German text, the groups listed in collation order,
 * and for every row its translation and a location label built from the
 * opera, the act and scene, the page and the addressee.
 */
module StraussTermSearch {
  import opened Wrappers
  import opened JsText
  import opened Seqs
  import opened Sorting
  import opened StraussData
  import opened StraussSearch
  import opened StraussGrouping

  /** The row matches query `q`: its German text is truthy, its normalised
      form contains `q`, and the row has a page. */
  predicate TermKeeps(row: Record, q: string, h: Helpers)
  {
    && Truthy(Field(row, "de"))
    && Includes(h.normalize(Field(row, "de")), q)
    && HasPage(row)
  }

  /** The `allData.filter(...)` of the term search. */
  function TermFilter(records: seq<Record>, q: string, h: Helpers): (r: seq<Record>)
    ensures IsSubsequence(r, records)
    ensures forall k :: 0 <= k < |r| ==> TermKeeps(r[k], q, h)
    ensures forall x :: multiset(r)[x] == if TermKeeps(x, q, h) then multiset(records)[x] else 0
  {
    var keep := (x: Record) => TermKeeps(x, q, h);
    FilterMultiset(records, keep);
    FilterIsSubsequence(records, keep);
    Filter(records, keep)
  }

  /** A found row is grouped under its own German text, never under the
      placeholder for a row without one. */
  lemma FoundRowsKeyedByGerman(records: seq<Record>, q: string, h: Helpers)
    ensures forall k :: 0 <= k < |TermFilter(records, q, h)| ==>
      GroupKey(TermFilter(records, q, h)[k]) == ToJsString(Field(TermFilter(records, q, h)[k], "de"))
  {
  }

  /** What the term search hands to the page. */
  datatype TermOutcome =
    | Prompt                                 // 検索語句を入力してください。
    | TermFailed(error: LoadError)
    | NotFound                               // 該当するデータが見つかりませんでした。
    | GroupingFailed                         // the TypeError of `acc[de].push`, caught and reported
    | Found(count: nat, groups: seq<Group>)  // N件該当しました。 and the groups

  /** The query is missing, not a string, or blank. */
  predicate NoQuery(query: Cell)
  {
    !query.Str? || IsBlank(query.s)
  }

  /** `searchRSTerms(query)`: `sheet` is the "RS" sheet and `collate` the
      engine's `localeCompare(_, 'de')`. */
  function SearchTerms(query: Cell, sheet: Option<seq<seq<Cell>>>, collate: (string, string) -> int, h: Helpers)
    : (r: TermOutcome)
    ensures r.Prompt? <==> NoQuery(query)
    ensures r.TermFailed? <==> !NoQuery(query) && LoadRecords(sheet, h.lower).Err?
    ensures r.NotFound? <==> (
      && !NoQuery(query)
      && LoadRecords(sheet, h.lower).Ok?
      && TermFilter(LoadRecords(sheet, h.lower).value, h.normalize(query), h) == [])
    ensures r.GroupingFailed? <==> (
      && !NoQuery(query)
      && LoadRecords(sheet, h.lower).Ok?
      && var found := TermFilter(LoadRecords(sheet, h.lower).value, h.normalize(query), h);
      found != [] && HitsInherited(found))
    ensures r.Found? ==>
      var found := TermFilter(LoadRecords(sheet, h.lower).value, h.normalize(query), h);
      && r.count == |found| > 0
      && !HitsInherited(found)
      && multiset(r.groups) == multiset(GroupRows(found))
  {
    if NoQuery(query) then Prompt
    else
      match LoadRecords(sheet, h.lower)
      case Err(e) => TermFailed(e)
      case Ok(records) =>
        var found := TermFilter(records, h.normalize(query), h);
        GroupRowsAsWrittenFails(found);
        if |found| == 0 then NotFound
        else
          match GroupRowsAsWritten(found)
          case None => GroupingFailed
          case Some(groups) => Found(|found|, SortGroups(groups, collate))
  }

  /** The listed groups partition the found rows by German text: one group
      per distinct text, each holding exactly the found rows with that text
      in sheet order; with a consistent collation they are in key order. */
  lemma FoundGroupsPartition(query: Cell, sheet: Option<seq<seq<Cell>>>, collate: (string, string) -> int, h: Helpers)
    requires SearchTerms(query, sheet, collate, h).Found?
    ensures var r := SearchTerms(query, sheet, collate, h);
      Partitions(r.groups, TermFilter(LoadRecords(sheet, h.lower).value, h.normalize(query), h))
    ensures var r := SearchTerms(query, sheet, collate, h);
      Consistent(GroupOrder(collate)) ==> Sorted(r.groups, GroupOrder(collate))
  {
    var found := TermFilter(LoadRecords(sheet, h.lower).value, h.normalize(query), h);
    GroupRowsAsWrittenFails(found);
    SortedGroupsPartition(found, collate);
  }

  // ---------------------------------------------------------------------------
  // Line breaks: `escapeHtml(str).replace(/(?:\r\n|\r|\n)/g, '<br>')`
  // ---------------------------------------------------------------------------

  predicate IsLineBreak(c: char)
  {
    c == '\r' || c == '\n'
  }

  /** Replace each CRLF pair, lone CR and lone LF with `<br>`. */
  function BreakLines(s: string): (r: string)
    ensures forall k :: 0 <= k < |r| ==> !IsLineBreak(r[k])
  {
    if |s| == 0 then ""
    else if s[0] == '\r' && |s| >= 2 && s[1] == '\n' then "<br>" + BreakLines(s[2..])
    else if IsLineBreak(s[0]) then "<br>" + BreakLines(s[1..])
    else [s[0]] + BreakLines(s[1..])
  }

  /** Text without line breaks passes unchanged. */
  lemma {:induction false} BreakLinesIdentity(s: string)
    requires forall k :: 0 <= k < |s| ==> !IsLineBreak(s[k])
    ensures BreakLines(s) == s
  {
    if |s| > 0 {
      assert forall k :: 1 <= k < |s| ==> s[1..][k - 1] == s[k];
      BreakLinesIdentity(s[1..]);
    }
  }

  /** Breaking lines works piece by piece, unless a CR ends the first piece
      and an LF starts the second, which together make one break. */
  lemma {:induction false} BreakLinesConcat(a: string, b: string)
    requires !(|a| > 0 && a[|a| - 1] == '\r' && |b| > 0 && b[0] == '\n')
    ensures BreakLines(a + b) == BreakLines(a) + BreakLines(b)
  {
    if |a| == 0 {
      assert a + b == b;
    } else {
      var n, head := BreakWidth(a), BreakHead(a);
      var rest := a[n..];
      FirstBreakOfConcat(a, b);
      assert (a + b)[n..] == rest + b;
      BreakLinesStep(a);
      BreakLinesStep(a + b);
      assert |rest| > 0 ==> rest[|rest| - 1] == a[|a| - 1];
      BreakLinesConcat(rest, b);
      AppendAssociative(head, BreakLines(rest), BreakLines(b));
    }
  }

  /** How many characters the first replacement step consumes. */
  function BreakWidth(s: string): nat
    requires |s| > 0
  {
    if s[0] == '\r' && |s| >= 2 && s[1] == '\n' then 2 else 1
  }

  /** What the first replacement step produces. */
  function BreakHead(s: string): string
    requires |s| > 0
  {
    if IsLineBreak(s[0]) then "<br>" else [s[0]]
  }

  lemma BreakLinesStep(s: string)
    requires |s| > 0
    ensures BreakWidth(s) <= |s|
    ensures BreakLines(s) == BreakHead(s) + BreakLines(s[BreakWidth(s)..])
  {
  }

  /** Unless a CR/LF pair is split, the first step sees the same
      characters in `a + b` as in `a`. */
  lemma FirstBreakOfConcat(a: string, b: string)
    requires |a| > 0
    requires !(a[|a| - 1] == '\r' && |b| > 0 && b[0] == '\n')
    ensures BreakWidth(a + b) == BreakWidth(a) && BreakHead(a + b) == BreakHead(a)
  {
    assert (a + b)[0] == a[0];
    if |a| >= 2 {
      assert (a + b)[1] == a[1];
    } else if |b| > 0 {
      assert (a + b)[1] == b[0];
    }
  }

  /** A CRLF pair is one break, not two. */
  lemma CrLfIsOneBreak()
    ensures BreakLines("\r\n") == "<br>"
    ensures BreakLines("\n\r") == "<br><br>"
  {
    assert "\r\n"[2..] == [];
    assert "\n\r"[1..] == "\r";
    assert "\r"[1..] == [];
  }

  /** `escapeHtmlWithBreaks(c)` */
  function EscapeWithBreaks(c: Cell, h: Helpers): (r: string)
    ensures forall k :: 0 <= k < |r| ==> !IsLineBreak(r[k])
  {
    BreakLines(h.escape(c))
  }

  // ---------------------------------------------------------------------------
  // Location label
  // ---------------------------------------------------------------------------

  /** Display names of the operas by normalised key. */
  const OperaDisplayNames: map<string, string> := map[
    "guntram" := "Guntram", "feuersnot" := "Feuersnot", "salome" := "Salome",
    "elektra" := "Elektra", "rosenkavalier" := "Der Rosenkavalier", "ariadne" := "Ariadne auf Naxos",
    "schatten" := "Die Frau ohne Schatten", "intermezzo" := "Intermezzo", "helena" := "Die ägyptische Helena",
    "arabella" := "Arabella", "schweigsame" := "Die schweigsame Frau", "tag" := "Friedenstag",
    "daphne" := "Daphne", "danae" := "Die Liebe der Danae", "cap" := "Capriccio"
  ]

  /** The normalised opera key of a row. */
  function OperKey(row: Record, h: Helpers): string
  {
    h.normalize(Or(Field(row, "oper"), Str("")))
  }

  /** The opera's display name, or its escaped cell for an unknown key.
      `operaDisplayNames` is an object literal, so a key naming a member it
      inherits reads that member, which is truthy and rendered unescaped;
      every display name is truthy too, so `||` falls back only for a key
      that is neither. */
  function OperaName(row: Record, h: Helpers): (r: string)
    ensures OperKey(row, h) in OperaDisplayNames ==> r == OperaDisplayNames[OperKey(row, h)]
    ensures OperKey(row, h) in InheritedNames ==> r == h.inherited(OperKey(row, h))
    ensures OperKey(row, h) !in OperaDisplayNames && OperKey(row, h) !in InheritedNames ==>
      r == h.escape(Field(row, "oper"))
  {
    var k := OperKey(row, h);
    if k in OperaDisplayNames then OperaDisplayNames[k]
    else if k in InheritedNames then h.inherited(k)
    else h.escape(Field(row, "oper"))
  }

  /** The scene's name from `sceneMap` under `oper-aufzug-szene`, or
      `場面(aufzug-szene)` when the map has no non-empty name for it. */
  function SceneName(row: Record, sceneMap: map<string, string>, h: Helpers): string
  {
    var a, s := ScenePart(Field(row, "aufzug"), h.lower), ScenePart(Field(row, "szene"), h.lower);
    var key := OperKey(row, h) + "-" + a + "-" + s;
    h.escape(Str(if key in sceneMap && sceneMap[key] != "" then sceneMap[key] else "場面(" + a + "-" + s + ")"))
  }

  /** A scene missing from `sceneMap`, or named "" there, is named by the same `aufzug-szene`
      code the scene search selects it by. */
  lemma {:induction false} FallbackSceneNameIsSceneCode(row: Record, sceneMap: map<string, string>, h: Helpers)
    requires var key := OperKey(row, h) + "-" + SceneCode(row, h.lower);
      key !in sceneMap || sceneMap[key] == ""
    ensures SceneName(row, sceneMap, h) == h.escape(Str("場面(" + SceneCode(row, h.lower) + ")"))
  {
    var a, s := ScenePart(Field(row, "aufzug"), h.lower), ScenePart(Field(row, "szene"), h.lower);
    assert SceneCode(row, h.lower) == a + "-" + s;
    Regroup(OperKey(row, h), a, s);
  }

  /** Regrouping the pieces of the scene-map key and of the fallback name. */
  lemma Regroup(o: string, a: string, s: string)
    ensures o + "-" + a + "-" + s == o + "-" + (a + "-" + s)
    ensures "場面(" + a + "-" + s + ")" == "場面(" + (a + "-" + s) + ")"
  {
  }

  /** `opera scene p.page`, trimmed; the page part is empty without a
      page. */
  function JoinSite(opera: string, scene: string, page: string): string
  {
    var pageDisplay := if page != "" then "p." + page else "";
    Trim(opera + " " + scene + " " + pageDisplay)
  }

  /** The site of a row: opera, scene and page. */
  function Site(row: Record, sceneMap: map<string, string>, h: Helpers): string
  {
    JoinSite(OperaName(row, h), SceneName(row, sceneMap, h), h.escape(Or(Field(row, "page"), Str(""))))
  }

  /** The escaped addressee, empty when there is none. */
  function Whom(row: Record, h: Helpers): string
  {
    h.escape(Or(Field(row, "whom"), Str("")))
  }

  /** Joining the site and the addressee: the site, then `：` and the
      addressee when there is one. */
  function JoinLabel(site: string, whom: string): (r: string)
    ensures r == "" <==> site == "" && whom == ""
    ensures whom == "" ==> r == site
    ensures StartsWith(r, site)
    ensures whom != "" ==>
      && |r| == |site| + 1 + |whom|
      && r[|site|] == '：'
      && r[|site| + 1..] == whom
  {
    if whom != "" then (if site != "" then site + "：" + whom else "：" + whom)
    else site
  }

  /** The location label of a row: empty only when both the site and the
      addressee are, and always led by the site. */
  function LocationLabel(row: Record, sceneMap: map<string, string>, h: Helpers): (r: string)
    ensures r == "" <==> Site(row, sceneMap, h) == "" && Whom(row, h) == ""
    ensures StartsWith(r, Site(row, sceneMap, h))
  {
    JoinLabel(Site(row, sceneMap, h), Whom(row, h))
  }

  /** Trimming text that starts and ends with non-space characters leaves
      it in front. */
  lemma TrimKeepsHead(name: string, rest: string)
    requires |name| > 0 && !IsJsSpace(name[0]) && !IsJsSpace(name[|name| - 1])
    ensures StartsWith(Trim(name + rest), name)
  {
    var s := name + rest;
    assert TrimStart(s) == s by {
      assert s[0] == name[0];
    }
    var r := TrimEnd(s);
    assert s[|name| - 1] == name[|name| - 1];
    assert |r| >= |name|;
    assert r[..|name|] == s[..|name|] == name;
  }

  /** The site starts with the opera's name when that name has no space at
      either end. */
  lemma SiteStartsWithOperaName(opera: string, scene: string, page: string)
    requires |opera| > 0 && !IsJsSpace(opera[0]) && !IsJsSpace(opera[|opera| - 1])
    ensures StartsWith(JoinSite(opera, scene, page), opera)
  {
    var pageDisplay := if page != "" then "p." + page else "";
    var rest := " " + scene + " " + pageDisplay;
    assert opera + " " + scene + " " + pageDisplay == opera + rest;
    TrimKeepsHead(opera, rest);
  }

  /** For a known opera the label starts with the opera's display name. */
  lemma LabelStartsWithOperaName(row: Record, sceneMap: map<string, string>, h: Helpers)
    requires OperKey(row, h) in OperaDisplayNames
    ensures StartsWith(LocationLabel(row, sceneMap, h), OperaDisplayNames[OperKey(row, h)])
  {
    var name := OperaName(row, h);
    DisplayNamesTidy(OperKey(row, h));
    SiteStartsWithOperaName(name, SceneName(row, sceneMap, h), h.escape(Or(Field(row, "page"), Str(""))));
    StartsWithTransitive(LocationLabel(row, sceneMap, h), Site(row, sceneMap, h), name);
  }

  /** Every display name is non-empty and has no space at either end. */
  lemma DisplayNamesTidy(k: string)
    requires k in OperaDisplayNames
    ensures var n := OperaDisplayNames[k];
      |n| > 0 && !IsJsSpace(n[0]) && !IsJsSpace(n[|n| - 1])
  {
    var n := OperaDisplayNames[k];
    assert |n| > 0 && 'A' <= n[0] <= 'Z' && 'a' <= n[|n| - 1] <= 'z';
  }

  // ---------------------------------------------------------------------------
  // Rendering of the found groups
  // ---------------------------------------------------------------------------

  /** One found row: its translation, and its location when the label is
      not empty. */
  datatype Entry = Entry(translation: string, location: Option<string>)

  function EntryOf(row: Record, sceneMap: map<string, string>, h: Helpers): (e: Entry)
    ensures e.location.Some? <==> LocationLabel(row, sceneMap, h) != ""
    ensures e.location.Some? ==> e.location.value == LocationLabel(row, sceneMap, h)
    ensures e.translation == EscapeWithBreaks(Or(Field(row, "ja"), Str("")), h)
    ensures forall k :: 0 <= k < |e.translation| ==> !IsLineBreak(e.translation[k])
  {
    var loc := LocationLabel(row, sceneMap, h);
    Entry(EscapeWithBreaks(Or(Field(row, "ja"), Str("")), h), if loc != "" then Some(loc) else None)
  }

  /** A group as listed: its heading and one entry per row, in order. */
  datatype GroupView = GroupView(heading: string, entries: seq<Entry>)

  function RenderGroups(groups: seq<Group>, sceneMap: map<string, string>, h: Helpers): (r: seq<GroupView>)
    ensures |r| == |groups|
    ensures forall i :: 0 <= i < |groups| ==>
      && r[i].heading == EscapeWithBreaks(Str(groups[i].key), h)
      && |r[i].entries| == |groups[i].rows|
      && forall k :: 0 <= k < |groups[i].rows| ==> r[i].entries[k] == EntryOf(groups[i].rows[k], sceneMap, h)
  {
    MapSeq(groups, (g: Group) =>
      GroupView(EscapeWithBreaks(Str(g.key), h), MapSeq(g.rows, (row: Record) => EntryOf(row, sceneMap, h))))
  }
}

=== FILE: strauss_terms.dfy ===
/**
 * The German term list of Richard_Strauss.js (`getRichardStraussDeTerms`)
 * and the prefix suggestions built from it (`searchRSTermsPartially`).
 */
module StraussTerms {
  import opened Wrappers
  import opened JsText
  import opened Seqs
  import opened StraussData

  /** `{ original: row.de, normalized: row.de_normalized }` */
  datatype Term = Term(original: Cell, normalized: Cell)

  function TermOf(row: Record): Term
  {
    Term(Field(row, "de"), Field(row, "de_normalized"))
  }

  /** Both the term and its normalised form are truthy. */
  predicate Complete(t: Term)
  {
    Truthy(t.original) && Truthy(t.normalized)
  }

  /** The `map(...).filter(...)` of the term list: one term per row whose
      German text and normalised text are both truthy, in row order. */
  function TermList(records: seq<Record>): (r: seq<Term>)
    ensures forall k :: 0 <= k < |r| ==> Complete(r[k])
    ensures forall t :: t in r <==> Complete(t) && exists i :: 0 <= i < |records| && TermOf(records[i]) == t
    ensures IsSubsequence(r, MapSeq(records, TermOf))
    ensures forall t :: multiset(r)[t] == if Complete(t) then multiset(MapSeq(records, TermOf))[t] else 0
  {
    var all := MapSeq(records, TermOf);
    assert forall t :: t in all <==> exists i :: 0 <= i < |records| && TermOf(records[i]) == t by {
      forall t | t in all ensures exists i :: 0 <= i < |records| && TermOf(records[i]) == t {
        var i :| 0 <= i < |all| && all[i] == t;
        assert TermOf(records[i]) == t;
      }
    }
    FilterMultiset(all, Complete);
    FilterIsSubsequence(all, Complete);
    Filter(all, Complete)
  }

  // ---------------------------------------------------------------------------
  // De-duplication: `Array.from(new Map(terms.map(t => [t.original, t])).values())`
  // ---------------------------------------------------------------------------

  /** Position of the first term with original `x`. */
  function FirstIndexOf(s: seq<Term>, x: Cell): (r: Option<nat>)
    ensures r.Some? ==> r.value < |s| && s[r.value].original == x
    ensures r.Some? ==> forall k :: 0 <= k < r.value ==> s[k].original != x
    ensures r.None? ==> forall k :: 0 <= k < |s| ==> s[k].original != x
  {
    FindIndex(s, (t: Term) => t.original == x)
  }

  /** Position of the last term with original `x`. */
  function LastIndexOf(s: seq<Term>, x: Cell): (r: Option<nat>)
    ensures r.Some? ==> r.value < |s| && s[r.value].original == x
    ensures r.Some? ==> forall k :: r.value < k < |s| ==> s[k].original != x
    ensures r.None? ==> forall k :: 0 <= k < |s| ==> s[k].original != x
  {
    if |s| == 0 then None
    else if s[|s| - 1].original == x then Some(|s| - 1)
    else LastIndexOf(s[..|s| - 1], x)
  }

  /** Appending a term leaves the first occurrence of an earlier original
      where it was. */
  lemma {:induction false} FirstIndexOfSnoc(p: seq<Term>, t: Term, x: Cell)
    ensures FirstIndexOf(p + [t], x) ==
      if FirstIndexOf(p, x).Some? then FirstIndexOf(p, x)
      else if t.original == x then Some(|p|)
      else None
  {
    if |p| == 0 {
      assert p + [t] == [t];
      assert [t][1..] == [];
    } else {
      assert (p + [t])[0] == p[0];
      assert (p + [t])[1..] == p[1..] + [t];
      FirstIndexOfSnoc(p[1..], t, x);
    }
  }

  /** No two terms share an original. */
  predicate DistinctOriginals(s: seq<Term>)
  {
    forall i, j :: 0 <= i < j < |s| ==> s[i].original != s[j].original
  }

  /** `map.set(t.original, t)` on a map listed in insertion order: an
      existing key keeps its position and takes the new value; a new key
      goes last. */
  function Upsert(acc: seq<Term>, t: Term): (r: seq<Term>)
    ensures |r| == |acc| || |r| == |acc| + 1
  {
    match FirstIndexOf(acc, t.original)
    case Some(i) => acc[i := t]
    case None => acc + [t]
  }

  /** The values of the map built from `terms`, in insertion order. */
  function Dedup(terms: seq<Term>): (r: seq<Term>)
    ensures |r| <= |terms|
    ensures forall k :: 0 <= k < |r| ==> r[k] in terms
  {
    if |terms| == 0 then []
    else
      var p, t := terms[..|terms| - 1], terms[|terms| - 1];
      var d := Dedup(p);
      assert forall k :: 0 <= k < |d| ==> d[k] in p;
      Upsert(d, t)
  }

  /** The de-duplicated list has each original once. */
  lemma {:induction false} DedupDistinct(terms: seq<Term>)
    ensures DistinctOriginals(Dedup(terms))
  {
    if |terms| > 0 {
      var p, t := terms[..|terms| - 1], terms[|terms| - 1];
      DedupDistinct(p);
    }
  }

  /** Some term of `s` has original `x`. */
  predicate HasOriginal(s: seq<Term>, x: Cell)
  {
    exists i :: 0 <= i < |s| && s[i].original == x
  }

  /** Exactly the originals of the input survive. */
  lemma {:induction false} DedupSameOriginals(terms: seq<Term>)
    ensures forall x :: HasOriginal(Dedup(terms), x) <==> HasOriginal(terms, x)
  {
    if |terms| > 0 {
      var p, t := terms[..|terms| - 1], terms[|terms| - 1];
      DedupSameOriginals(p);
      var d := Dedup(p);
      var r := Dedup(terms);
      forall x ensures HasOriginal(r, x) <==> HasOriginal(terms, x) {
        assert HasOriginal(terms, x) <==> HasOriginal(p, x) || t.original == x by {
          if HasOriginal(p, x) {
            var i :| 0 <= i < |p| && p[i].original == x;
            assert terms[i].original == x;
          }
          if HasOriginal(terms, x) && t.original != x {
            var i :| 0 <= i < |terms| && terms[i].original == x;
            assert p[i].original == x;
          }
          assert t.original == x ==> terms[|terms| - 1].original == x;
        }
        match FirstIndexOf(d, t.original)
        case Some(i) =>
          assert r == d[i := t];
          assert forall k :: 0 <= k < |d| ==> r[k].original == d[k].original;
          if HasOriginal(d, x) {
            var k :| 0 <= k < |d| && d[k].original == x;
            assert r[k].original == x;
          }
        case None =>
          assert r == d + [t];
          assert r[|d|].original == t.original;
          if HasOriginal(d, x) {
            var k :| 0 <= k < |d| && d[k].original == x;
            assert r[k].original == x;
          }
          if HasOriginal(r, x) && x != t.original {
            var k :| 0 <= k < |r| && r[k].original == x;
            assert d[k].original == x;
          }
      }
    }
  }

  /** Each surviving entry is the LAST term with its original: a later
      duplicate overwrites an earlier one. */
  lemma {:induction false} DedupKeepsLast(terms: seq<Term>)
    ensures forall i :: 0 <= i < |Dedup(terms)| ==>
      && LastIndexOf(terms, Dedup(terms)[i].original).Some?
      && Dedup(terms)[i] == terms[LastIndexOf(terms, Dedup(terms)[i].original).value]
  {
    if |terms| > 0 {
      var p, t := terms[..|terms| - 1], terms[|terms| - 1];
      DedupKeepsLast(p);
      DedupDistinct(p);
      var d := Dedup(p);
      var r := Dedup(terms);
      forall i | 0 <= i < |r|
        ensures LastIndexOf(terms, r[i].original).Some?
        ensures r[i] == terms[LastIndexOf(terms, r[i].original).value]
      {
        var x := r[i].original;
        if x == t.original {
          assert LastIndexOf(terms, x) == Some(|terms| - 1);
          match FirstIndexOf(d, t.original)
          case Some(j) =>
          case None =>
            assert i == |d|;
        } else {
          assert LastIndexOf(terms, x) == LastIndexOf(p, x);
          assert r[i] == d[i];
        }
      }
    }
  }

  /** Every original of `d` occurs in `s`, and the originals of `d` come in
      the order of their first occurrence in `s`. */
  predicate InFirstOccurrenceOrder(d: seq<Term>, s: seq<Term>)
  {
    && (forall i :: 0 <= i < |d| ==> FirstIndexOf(s, d[i].original).Some?)
    && (forall i, j :: 0 <= i < j < |d| ==>
         FirstIndexOf(s, d[i].original).value < FirstIndexOf(s, d[j].original).value)
  }

  /** Entries appear in the order their originals first occur. */
  lemma {:induction false} DedupFirstOccurrenceOrder(terms: seq<Term>)
    ensures InFirstOccurrenceOrder(Dedup(terms), terms)
    decreases |terms|, 1
  {
    if |terms| > 0 {
      FirstOccurrenceStep(terms[..|terms| - 1], terms[|terms| - 1], terms);
    }
  }

  /** One step of the de-duplication keeps the first-occurrence order. */
  lemma FirstOccurrenceStep(p: seq<Term>, t: Term, terms: seq<Term>)
    requires terms == p + [t]
    ensures InFirstOccurrenceOrder(Dedup(terms), terms)
    decreases |terms|, 0
  {
    DedupFirstOccurrenceOrder(p);
    DedupSameOriginals(p);
    assert terms[..|terms| - 1] == p;
    var d := Dedup(p);
    assert Dedup(terms) == Upsert(d, t);
    OrderExtends(d, p, t);
    match FirstIndexOf(d, t.original)
    case Some(m) =>
      OrderOverwrite(d, d[m := t], terms);
    case None =>
      assert !HasOriginal(d, t.original);
      FirstIndexOfSnoc(p, t, t.original);
      OrderAppend(d, terms, t, |p|);
  }

  /** Appending a term to the input moves no first occurrence, and every
      one of them stays before the new position. */
  lemma OrderExtends(d: seq<Term>, p: seq<Term>, t: Term)
    requires InFirstOccurrenceOrder(d, p)
    ensures InFirstOccurrenceOrder(d, p + [t])
    ensures forall k :: 0 <= k < |d| ==> FirstIndexOf(p + [t], d[k].original).value < |p|
  {
    forall k | 0 <= k < |d| ensures FirstIndexOf(p + [t], d[k].original) == FirstIndexOf(p, d[k].original) {
      FirstIndexOfSnoc(p, t, d[k].original);
    }
  }

  /** Replacing entries by entries with the same originals keeps the order. */
  lemma OrderOverwrite(d: seq<Term>, r: seq<Term>, s: seq<Term>)
    requires InFirstOccurrenceOrder(d, s)
    requires |r| == |d| && forall k :: 0 <= k < |d| ==> r[k].original == d[k].original
    ensures InFirstOccurrenceOrder(r, s)
  {
  }

  /** A term whose original first occurs after all others may go last. */
  lemma OrderAppend(d: seq<Term>, s: seq<Term>, t: Term, n: nat)
    requires InFirstOccurrenceOrder(d, s)
    requires FirstIndexOf(s, t.original) == Some(n)
    requires forall k :: 0 <= k < |d| ==> FirstIndexOf(s, d[k].original).value < n
    ensures InFirstOccurrenceOrder(d + [t], s)
  {
    var r := d + [t];
    assert forall k :: 0 <= k < |d| ==> r[k] == d[k];
    assert r[|d|] == t;
  }

  // ---------------------------------------------------------------------------
  // getRichardStraussDeTerms and searchRSTermsPartially
  // ---------------------------------------------------------------------------

  /** `getRichardStraussDeTerms()`: the de-duplicated term list of the
      loaded records, or the loading error. */
  function DeTerms(sheet: Option<seq<seq<Cell>>>, lower: string -> string): (r: Result<seq<Term>, LoadError>)
    ensures r.Err? <==> LoadRecords(sheet, lower).Err?
    ensures r.Err? ==> r.error == LoadRecords(sheet, lower).error
    ensures r.Ok? ==> r.value == Dedup(TermList(LoadRecords(sheet, lower).value))
  {
    match LoadRecords(sheet, lower)
    case Err(e) => Err(e)
    case Ok(records) => Ok(Dedup(TermList(records)))
  }

  /** Why the suggestion request throws: the terms could not be loaded, or
      a truthy normalised form is not a string, so `startsWith` is not a
      function on it. */
  datatype PartialError = TermsFailed(error: LoadError) | NormalizedNotString

  /** The largest number of suggestions returned. */
  const MaxSuggestions: nat := 20

  /** The term's normalised form starts with the normalised input. */
  predicate PrefixMatch(t: Term, q: string)
  {
    t.normalized.Str? && StartsWith(t.normalized.s, q)
  }

  function PrefixTest(q: string): Term -> bool
  {
    (t: Term) => PrefixMatch(t, q)
  }

  /** The terms whose normalised form starts with `q`, in list order. */
  function PrefixMatches(terms: seq<Term>, q: string): (r: seq<Term>)
    ensures forall k :: 0 <= k < |r| ==> PrefixMatch(r[k], q) && r[k] in terms
    ensures forall t :: t in terms && PrefixMatch(t, q) ==> t in r
    ensures IsSubsequence(r, terms)
    ensures forall t :: multiset(r)[t] == if PrefixMatch(t, q) then multiset(terms)[t] else 0
  {
    FilterMultiset(terms, PrefixTest(q));
    FilterIsSubsequence(terms, PrefixTest(q));
    Filter(terms, PrefixTest(q))
  }

  /** The input is too short to search: not a string, or fewer than two
      characters once trimmed. */
  predicate TooShort(input: Cell)
  {
    !input.Str? || |Trim(input.s)| < 2
  }

  /** The suggestions for `input` drawn from the term list `terms`. */
  function Suggest(input: Cell, terms: seq<Term>, h: Helpers): (r: Result<seq<Cell>, PartialError>)
    ensures TooShort(input) ==> r == Ok([])
    ensures r.Err? ==> r == Err(NormalizedNotString)
    ensures !TooShort(input) ==>
      (r.Err? <==> exists k :: 0 <= k < |terms| && !terms[k].normalized.Str?)
    ensures r.Ok? ==> |r.value| <= MaxSuggestions
    ensures !TooShort(input) && r.Ok? ==>
      var m := PrefixMatches(terms, h.normalize(input));
      && |r.value| == (if |m| < MaxSuggestions then |m| else MaxSuggestions)
      && forall k :: 0 <= k < |r.value| ==> r.value[k] == m[k].original
  {
    if TooShort(input) then Ok([])
    else if exists k :: 0 <= k < |terms| && !terms[k].normalized.Str? then Err(NormalizedNotString)
    else
      var m := PrefixMatches(terms, h.normalize(input));
      Ok(Take(MapSeq(m, (t: Term) => t.original), MaxSuggestions))
  }

  /** `searchRSTermsPartially(input)`: a short input is answered before
      the terms are loaded. */
  function SearchPartially(input: Cell, sheet: Option<seq<seq<Cell>>>, h: Helpers)
    : (r: Result<seq<Cell>, PartialError>)
    ensures TooShort(input) ==> r == Ok([])
    ensures !TooShort(input) ==> (r.Err? && r.error.TermsFailed? <==> DeTerms(sheet, h.lower).Err?)
    ensures !TooShort(input) && DeTerms(sheet, h.lower).Ok? ==> r == Suggest(input, DeTerms(sheet, h.lower).value, h)
  {
    if TooShort(input) then Ok([])
    else
      match DeTerms(sheet, h.lower)
      case Err(e) => Err(TermsFailed(e))
      case Ok(terms) => Suggest(input, terms, h)
  }

  /** Filtering a list with distinct originals keeps them distinct. */
  lemma PrefixMatchesDistinct(terms: seq<Term>, q: string)
    requires DistinctOriginals(terms)
    ensures DistinctOriginals(PrefixMatches(terms, q))
  {
    FilterDistinct(terms, PrefixTest(q));
  }

  /** Any filter of a list with distinct originals keeps them distinct. */
  lemma {:induction false} FilterDistinct(terms: seq<Term>, p: Term -> bool)
    requires DistinctOriginals(terms)
    ensures DistinctOriginals(Filter(terms, p))
  {
    if |terms| > 0 {
      var tail := terms[1..];
      FilterDistinct(tail, p);
      var rest := Filter(tail, p);
      assert Filter(terms, p) == if p(terms[0]) then [terms[0]] + rest else rest;
      forall k | 0 <= k < |rest| ensures rest[k].original != terms[0].original {
        assert rest[k] in tail;
        var j :| 0 <= j < |tail| && tail[j] == rest[k];
        assert terms[j + 1] == rest[k];
      }
    }
  }

  /** No suggestion is offered twice, and each is the original of a term
      whose normalised form starts with the normalised input. */
  lemma SuggestionsDistinctAndMatching(input: Cell, records: seq<Record>, h: Helpers)
    requires Suggest(input, Dedup(TermList(records)), h).Ok?
    ensures var r := Suggest(input, Dedup(TermList(records)), h).value;
      forall i, j :: 0 <= i < j < |r| ==> r[i] != r[j]
    ensures var r := Suggest(input, Dedup(TermList(records)), h).value;
      forall k :: 0 <= k < |r| ==> (
        exists t :: t in Dedup(TermList(records)) && PrefixMatch(t, h.normalize(input)) && t.original == r[k])
  {
    if !TooShort(input) {
      var terms := Dedup(TermList(records));
      DedupDistinct(TermList(records));
      PrefixMatchesDistinct(terms, h.normalize(input));
      var m := PrefixMatches(terms, h.normalize(input));
      var r := Suggest(input, terms, h).value;
      forall k | 0 <= k < |r|
        ensures exists t :: t in terms && PrefixMatch(t, h.normalize(input)) && t.original == r[k]
      {
        assert m[k] in terms && PrefixMatch(m[k], h.normalize(input));
      }
    }
  }
}

=== FILE: wrappers.dfy ===
/** `Option` and `Result`, shared by the whole model. */
module Wrappers {

  /** A value that may be absent, as a JavaScript `undefined`/`NaN` result. */
  datatype Option<+T> = None | Some(value: T)

  /** The outcome of a step that can throw: `Err` carries what was thrown. */
  datatype Result<+T, +E> = Ok(value: T) | Err(error: E)
}
